=== FILE: README.md ===
# Notion connector: a Dafny model

This project models the core of an Obsidian plugin that downloads Notion
pages and databases into notes. The model covers the following parts:

- **The front-matter handler.** A handler keeps values `set` on a note over
  the front matter the metadata cache reports. `get` reads the combination
  back. `apply` writes the combined record into the note as a `---` fenced
  block. It replaces the block the anchored pattern `^\s*?---\n([\s\S]*?)\n---`
  finds, or puts a new block in front of the text.
- **The database projector.** A Notion database becomes a note with a
  heading and a `%% dbfolder:yaml` view configuration. The configuration has
  one column block per column, and each block carries its base 64 accessor key.
- **The entry projector.** Every full page of a database's query result
  becomes an entry note. The note holds a front-matter header with one line
  per property, the rendered page, and a task line for pages with a
  `Complete` checkbox.
- **The download.** A type hint decides which of the two retrievals run. The
  outcome decides whether the note is touched, what it then holds, and which
  metadata goes into its front matter. Re-syncing the active note reuses its
  recorded `notion-id` and `notion-type`.
- **The store.** The vault is a map from paths to file contents plus a set
  of folder paths. `createOrOverwrite` writes into it.

The modules follow the program's structure:

| file | module | what it holds |
|---|---|---|
| optional.dfy | `Optional` | `Option`, JavaScript's `undefined` |
| strings.dfy | `Strings` | join, split, hyphenation, substring search, decimal digits |
| assoc.dfy | `FrontMatterMap` | the insertion-ordered record: `m[k] = v`, `delete`, object spread |
| header.dfy | `HeaderBlock` | locating the header block, serialising a record, reading one back |
| handler.dfy | `FrontMatterHandler` | `set`, `remove`, `get`, `currentFrontMatter`, `apply` |
| base64.dfy | `Base64` | UTF-8 bytes and the base 64 encoding of section 4 of RFC 4648, with its decoder |
| notion.dfy | `NotionModel` | the Notion objects the connector reads, and the external renderers as function types |
| schema.dfy | `DatabaseProjector` | `formatOptions`, `notionDatabaseToMarkdown` |
| entries.dfy | `EntryProjector` | the entry note built in `syncDatabaseEntries` |
| vault.dfy | `Store` | the vault, `createOrOverwrite`, folder creation |
| sync.dfy | `NotionSync` | `syncDatabaseEntries`, `downloadFromNotionToFile`, `syncCurrentPageWithNotion` |

Most operations are pure functions. The three loops of the source are
modelled as methods: the loop appending the column blocks, the loop
appending the property lines of an entry, and the loop over the query
results. Each method is proved equal to a functional definition.

Every operation has a partner property:

- Serialisation is paired with a reference reader for the block format, with
  a round-trip lemma.
- Base 64 encoding is paired with its decoder, with round trips in both directions.
- The database note is paired with layout lemmas that place the configuration head, each column block and the settings, and with lemmas on the lines of each block.
- The resolution of an id is paired with lemmas for each kind of hint: which retrievals run and which item wins.
- The download is paired with frame properties: what it writes, and that nothing else changes.
- `apply` is shown to be a fixpoint and idempotent.
- `set` is paired with `get`, and `remove` with the cached value it exposes
  again.

Two behaviours of the code are worth noting:

- **Query folder.** The view configuration's `source_form_result` and
  `source_destination_path` name the parent path without one leading `/`,
  written directly in front of `<basename>-entries` with no separator. The
  entry notes go to `<parent>/<basename>-entries`. The two path strings
  always differ (NotionSync.QueryFolderMissesEntries). For a note inside a
  folder the view reads another folder: for a note `note` in the folder
  `a` the entries go to `a/note-entries` and the view reads
  `anote-entries` (NotionSync.NestedNoteExample).
- **Root notes.** For a note at the vault root, whose parent path is `/`,
  the entries folder path is a doubled `/` followed by the folder the view
  reads (NotionSync.RootEntriesDir). Whether the vault takes the two for
  the same folder depends on its path normalisation, which is not modelled.

## Model

| member | source | states |
|---|---|---|
| FrontMatterMap.Put | src/frontMatterHandler.ts:16-19 | `m[k] = v`: `k` then reads `v` and every other key reads as before. An existing key keeps its slot; a new key is appended at the end of the key order |
| FrontMatterMap.PutPut | src/frontMatterHandler.ts:16-19 | assigning a key twice gives the same record as assigning only the later value |
| FrontMatterMap.Delete | src/frontMatterHandler.ts:21-26 | `delete m[k]` keeps exactly the entries whose key is not `k`, and the keys left keep their order: they are the old keys with `k` filtered out. It is the identity when `k` is absent |
| FrontMatterMap.DeleteLookup | src/frontMatterHandler.ts:72 | after `delete m[k]` the key `k` reads `undefined` and every other key reads as before |
| FrontMatterMap.Overlay | src/frontMatterHandler.ts:67-70 | the object spread `{...base, ...top}` has the keys of both records: the keys of `base` in their order, then the keys only `top` holds, in `top`'s order |
| FrontMatterMap.OverlayLookup | src/frontMatterHandler.ts:67-70 | in the spread, a key of `top` reads its value in `top`; any other key reads its value in `base` |
| FrontMatterMap.LookupIsMember | src/frontMatterHandler.ts:29 | with distinct keys, a key reads `v` exactly when the entry `k: v` is in the record |
| FrontMatterHandler.Set | src/frontMatterHandler.ts:16-19 | `set(k, v)` makes `k` read `v` among the pending values and leaves every other pending key and the cached record alone |
| FrontMatterHandler.SetTwice | src/frontMatterHandler.ts:16-19 | a later `set` of the same key wins, and the handler is as if only the later `set` happened |
| FrontMatterHandler.GetAfterSet | src/frontMatterHandler.ts:28-30 | after `set(k, v)`, `get(k, d)` returns `v` whatever the cache held, for any key other than `position` |
| FrontMatterHandler.Remove | src/frontMatterHandler.ts:21-26 | `remove(k)` drops `k` from the pending values only. Other pending keys and the cached record are unchanged |
| FrontMatterHandler.GetAfterRemove | src/frontMatterHandler.ts:21-30 | after `remove(k)`, `get(k, d)` returns the cached value again, or `d` when the cache has none |
| FrontMatterHandler.Current | src/frontMatterHandler.ts:66-75 | the current record never holds the `position` key |
| FrontMatterHandler.CurrentLookup | src/frontMatterHandler.ts:66-72 | in the current record, `position` reads `undefined`, a pending key reads its pending value, and any other key reads its cached value |
| FrontMatterHandler.CurrentKeys | src/frontMatterHandler.ts:66-72 | a key is in the current record exactly when it is cached or pending and is not `position`. In order, the keys are the cached keys, then the keys only pending, with `position` filtered out |
| FrontMatterHandler.Get | src/frontMatterHandler.ts:28-30 | `get(k, d)` gives the pending value, else the cached value, else `d`, and always `d` for `position` |
| FrontMatterHandler.UnsetKeyKeepsCache | src/frontMatterHandler.ts:66-70 | a key that no call in a run of `set`/`remove` calls sets keeps its cached value in the current record |
| FrontMatterHandler.Apply | src/frontMatterHandler.ts:32-50 | with no header match, the result is the serialised record, a newline and the whole text. Otherwise the serialised record replaces the shortest match, leading white space included, and every character after the match is kept |
| FrontMatterHandler.ApplyFixpoint | src/frontMatterHandler.ts:36-44 | a note that starts with the serialised current record is left unchanged, when the record is non-empty and no line looks like the closing fence |
| FrontMatterHandler.ApplyIdempotent | src/frontMatterHandler.ts:32-50 | applying twice gives the same text as applying once, under the same conditions |
| FrontMatterHandler.ApplyReadsBack | src/frontMatterHandler.ts:32-63 | whatever the note held, its header afterwards reads back as the current record, when the record is non-empty and line-safe |
| FrontMatterHandler.EmptyApplyGrows | src/frontMatterHandler.ts:45-55 | with an empty record and no header, `apply` prepends a newline, so each repeat grows the note by one more newline |
| HeaderBlock.FindHeader | src/frontMatterHandler.ts:36 | the block is found exactly when the pattern matches. The span found is a match; every match opens at the same place and closes no earlier |
| HeaderBlock.ShortestMatchFound | src/frontMatterHandler.ts:36 | any match that closes no later than all others is the one found |
| HeaderBlock.OnlyLeadCandidate | src/frontMatterHandler.ts:36 | the opening fence of any match follows the whole leading white space |
| HeaderBlock.Serialise | src/frontMatterHandler.ts:52-55 | the serialisation is empty exactly for the empty record |
| HeaderBlock.SerialiseShape | src/frontMatterHandler.ts:57-62 | a non-empty record serialises as `---\n`, its `key: value` lines joined by newlines in record order, then `\n---` with no newline after it |
| HeaderBlock.ParseSerialised | src/frontMatterHandler.ts:57-62 | a serialised non-empty record of line-safe entries reads back as itself, whatever text follows it |
| HeaderBlock.FindSerialised | src/frontMatterHandler.ts:36 | in a serialised fence-free record followed by any text, the block found is the record's own, ending at its closing fence |
| Strings.Hyphenate | src/notionConnector.ts:73 | every space becomes `-`, every other character stays, and the length is unchanged |
| DatabaseProjector.FormatOptions | src/notionConnector.ts:43-47 | with no options, the bare four-space indent. Otherwise one `- { label: "<name>", backgroundColor: "<color>" }` per option, in input order, each behind four spaces, joined by newlines |
| DatabaseProjector.ColumnConfigOf | src/notionConnector.ts:71-87 | a column's key is its name with spaces hyphenated (same length, no spaces) and its label is the unchanged name. The input is `select`, `tags` or `text` by kind, and options appear exactly for the two select kinds. The accessor key is the base 64 encoding of the id's UTF-8 bytes, and it is the only text the decoder maps back to those bytes |
| DatabaseProjector.ColumnBlockKey | src/notionConnector.ts:72-73 | a column's block opens with `  <name>:` and then `    key: <name with spaces hyphenated>` |
| DatabaseProjector.ColumnBlockAccessor | src/notionConnector.ts:85 | a column's block holds the line `    accessorKey: ` followed by the base 64 encoding of the id's UTF-8 bytes |
| DatabaseProjector.ColumnBlockPosition | src/notionConnector.ts:87-95 | the position line of a block rendered at position `p` reads `    position: <p>`, and only the fixed display settings follow it |
| DatabaseProjector.QueryFolder | src/notionConnector.ts:115-116 | the query folder: no prefix for an empty parent path, one leading `/` removed otherwise, and no separator before `<basename>-entries` |
| DatabaseProjector.MarkdownText | src/notionConnector.ts:58-131 | the database note starts with `# <title>\n\n%% dbfolder:yaml\n` and ends with `%%\n` |
| DatabaseProjector.MarkdownHeadAt | src/notionConnector.ts:62-67 | the configuration head with `name: <title>` follows the heading |
| DatabaseProjector.MarkdownBlockAt | src/notionConnector.ts:69-96 | the block at index `i` stands right after the heading, the configuration head and the blocks before it, so the blocks follow in order |
| DatabaseProjector.MarkdownSettingsAt | src/notionConnector.ts:98-130 | the note's length is that of the heading, the head, the blocks, the settings and the closing line together, and the settings stand right before the closing line |
| DatabaseProjector.DatabaseMarkdown | src/notionConnector.ts:58-62 | no note exactly when the title is empty (reading the first title run fails). Otherwise the note is framed by the heading of the first run's text and `%%\n`, and it is the note text over the column blocks: one per column, in column order, the block at index `i` rendered with position `i` |
| DatabaseProjector.AppendBlocks | src/notionConnector.ts:69-96 | the loop with its running position counter appends exactly the column blocks, in order |
| DatabaseProjector.BuildDatabaseMarkdown | src/notionConnector.ts:58-132 | the string the connector builds step by step is the database note |
| Base64.Utf8 | src/notionConnector.ts:85 | `Buffer.from(id)` gives at least one byte per character, and exactly the character codes for an ASCII id |
| Base64.Encode | src/notionConnector.ts:85 | the encoding has four characters per started group of three bytes, all from the alphabet or `=` |
| Base64.EncodeDecode | src/notionConnector.ts:85 | every text the decoder accepts is the encoding of what it decodes to. The decoder rejects non-zero pad bits, so each byte sequence has exactly one encoding |
| Base64.DecodeEncode | src/notionConnector.ts:85 | decoding undoes encoding for every byte sequence |
| NotionModel.FindProperty | src/notionConnector.ts:202 | `name in properties` holds exactly when a property of that name exists, and the value found is that property's |
| EntryProjector.TruthyText | src/notionConnector.ts:177 | `o ? o : ""` is non-empty exactly when `o` is truthy, and then is `o` |
| EntryProjector.DateText | src/notionConnector.ts:176-182 | a date is the start, then ` -- ` only when both ends are present, then the end whenever present, then a space and the zone when there is one |
| EntryProjector.PeopleText | src/notionConnector.ts:167-169 | people are one `- [[name]]` item per user, each behind `\n  ` |
| EntryProjector.BoolText | src/notionConnector.ts:170-172 | a checkbox value is `true` exactly when checked, and `false` otherwise |
| EntryProjector.TitleText | src/notionConnector.ts:189 | the title runs, each through the annotator, are joined with single spaces: empty for no runs, the one annotated run alone, and in general a text that splits at its spaces back into the annotated runs when none holds a space |
| EntryProjector.TitleTextAppend | src/notionConnector.ts:189 | the title of two non-empty run sequences is their two titles with one space between, whatever spaces the runs hold; with the one-run case this fixes the title for every number of runs, doubled spaces included |
| EntryProjector.PropertyText | src/notionConnector.ts:166-192 | people, date and title values render through their helpers above, a checkbox as `true` or `false`, and the created time verbatim; selects, multi-selects and unhandled kinds give an empty value |
| EntryProjector.PropertyField | src/notionConnector.ts:164-194 | a property's key is its name with spaces hyphenated (same length, no spaces) and its value is the property's text |
| EntryProjector.HeaderFields | src/notionConnector.ts:154-196 | the header has the page id, then the sync time, then one field per property in property order |
| EntryProjector.StepProperty | src/notionConnector.ts:162-195 | one property's value, with the title replaced by a title property's text and the due date by the date of a date property named `Due Date` |
| EntryProjector.AppendProperty | src/notionConnector.ts:162-195 | one turn of the property loop appends the next header line and updates the tracked title and due date |
| EntryProjector.AppendProperties | src/notionConnector.ts:158-196 | the property loop gives the header text of all fields, the last title, and the due date |
| EntryProjector.ProjectEntry | src/notionConnector.ts:154-213 | the string built for an entry is its entry note |
| EntryProjector.EntryContent | src/notionConnector.ts:154-156 | an entry note starts with `---\nnotion-id: <id>\n` |
| EntryProjector.EntryContentPieces | src/notionConnector.ts:154-200 | an entry note is the fence, one `key: value` line per field, `---\n`, the rendered page and the task line |
| EntryProjector.EntryHeaderReadsBack | src/notionConnector.ts:154-198 | an entry note's header reads back as its fields, when no field breaks the line format |
| EntryProjector.TaskText | src/notionConnector.ts:202-213 | a task line exists exactly when a `Complete` checkbox exists, and is then the checkbox mark and the task body |
| EntryProjector.TaskMark | src/notionConnector.ts:203 | the mark is `\n - [x]` when checked and `\n - [ ]` otherwise |
| EntryProjector.PriorityText | src/notionConnector.ts:206-208 | with a select `Priority`, its choice's name and a space, and `undefined ` when nothing is chosen. Without one, nothing |
| EntryProjector.TaskBody | src/notionConnector.ts:204-212 | the task body is ` <title> `, the priority text, the due-date text and a newline |
| EntryProjector.TaskBodyDue | src/notionConnector.ts:204-212 | with a due date, the body ends in the calendar marker, the due date and a newline. Without one, the body carries no marker |
| EntryProjector.TaskLineMark | src/notionConnector.ts:202-212 | a task line reads `[x]` exactly when the `Complete` box is checked, and ends in a newline |
| EntryProjector.TaskLineDue | src/notionConnector.ts:209-212 | with a non-empty due date, the calendar marker and the due date stand right before the task line's final newline |
| EntryProjector.LastTitleIs | src/notionConnector.ts:188-191 | the tracked title is the text of the last title property |
| EntryProjector.NoTitle | src/notionConnector.ts:158-191 | without a title property the tracked title stays empty |
| EntryProjector.DueDateFromProperty | src/notionConnector.ts:176-186 | the tracked due date is the date text of the property named `Due Date` when it is a date, and empty otherwise |
| Store.Write | src/notionConnector.ts:33-41 | a write leaves the given text at the path and every other path and folder as it was |
| Store.CreateOrOverwrite | src/notionConnector.ts:33-41 | whether or not something is at the path, the file then holds the content, the set of files gains at most that path, and nothing else changes |
| Store.OverwriteTwice | src/notionConnector.ts:33-41 | writing the same path twice keeps only the second content |
| Store.OverwriteSame | src/notionConnector.ts:33-41 | writing the content a file already holds changes nothing |
| Store.OverwriteCommutes | src/notionConnector.ts:33-41 | writes to different paths commute |
| Store.EnsureFolder | src/notionConnector.ts:137-143 | the folder then exists, files are untouched, and a folder is created only when nothing was at the path |
| NotionSync.EntriesDir | src/notionConnector.ts:135 | the entries folder is the parent path, `/`, the base name and `-entries` |
| NotionSync.EntryPath | src/notionConnector.ts:215 | the entry note path is the entries folder, `/`, the page id and `.md` |
| NotionSync.QueryFolderMissesEntries | src/notionConnector.ts:115-116 | the path string of the folder the view reads always differs from that of the entries folder; for a folder path without a leading `/`, the two differ only by the `/` before the base name |
| NotionSync.NestedNoteExample | src/notionConnector.ts:115-116 | for the note `note` in the folder `a`, the entries folder is `a/note-entries` and the view reads `anote-entries` |
| NotionSync.RootEntriesDir | src/notionConnector.ts:135 | for a note whose parent path is `/`, the view reads `<basename>-entries` and the entries folder path is `//` followed by that folder |
| NotionSync.EntryPathInjective | src/notionConnector.ts:215 | different page ids get different entry note paths |
| NotionSync.WriteEntries | src/notionConnector.ts:149-217 | writing entries keeps folders and never removes a file |
| NotionSync.WriteEntriesFrame | src/notionConnector.ts:149-217 | a path that is no full page's entry note reads as before |
| NotionSync.WriteEntriesContent | src/notionConnector.ts:149-217 | a full page's entry note holds that page's projection, taken from the last result with that id |
| NotionSync.SyncDatabaseEntries | src/notionConnector.ts:134-220 | the loop over the first query page creates the entries folder if needed and writes one entry note per full page, skipping partial ones |
| NotionSync.SyncedEntries | src/notionConnector.ts:134-220 | after a sync the entries folder exists, and every path other than the entry notes reads as before |
| NotionSync.Resolve | src/notionConnector.ts:232-257 | a page is fetched exactly when the hint is missing, empty or `page`. A database is fetched exactly when the hint is not `page` and no page retrieval succeeded. A database retrieval decides the item; otherwise a successful page retrieval does; otherwise nothing resolves |
| NotionSync.PageHintSkipsDatabase | src/notionConnector.ts:232-243 | a `page` hint fetches the page and never the database |
| NotionSync.OtherHintSkipsPage | src/notionConnector.ts:232-243 | any other non-empty hint never fetches the page, and always tries the database |
| NotionSync.NoHintFallsBack | src/notionConnector.ts:232-250 | with no usable hint, a failed page retrieval falls back to the database, which decides the item |
| NotionSync.NoHintPrefersPage | src/notionConnector.ts:232-243 | with no usable hint, a page that resolves wins and the database is not tried |
| NotionSync.KindOf | src/notionConnector.ts:280 | the reported kind is `page` exactly for pages and `database` exactly for databases |
| NotionSync.BannerText | src/notionConnector.ts:290-292 | the banner is the external cover link in double quotes, and `"undefined"` for an uploaded cover or none |
| NotionSync.BaseMetadata | src/notionConnector.ts:280-283 | the first three `set` calls record the id, the kind and the sync time and nothing else |
| NotionSync.WithPlugin | src/notionConnector.ts:285-287 | `database-plugin: basic` is set for databases, and pages are left alone |
| NotionSync.WithBanner | src/notionConnector.ts:290-292 | the banner is set exactly for objects that have a cover field |
| NotionSync.MetadataCore | src/notionConnector.ts:280-283 | the metadata carries the given id, the resolved kind and the sync time, overriding cached values |
| NotionSync.MetadataGet | src/notionConnector.ts:280-283 | reading `notion-id` and `notion-type` back through the handler gives the id and the kind |
| NotionSync.MetadataPlugin | src/notionConnector.ts:285-287 | `database-plugin` is set, and to `basic`, exactly when the object is a database |
| NotionSync.MetadataBanner | src/notionConnector.ts:290-292 | a banner is set exactly for full objects |
| NotionSync.ItemText | src/notionConnector.ts:230-257 | a full page's text is the rendered page and a full database's is its note; a partial object's text is empty. Only a full database with an empty title has none |
| NotionSync.Download | src/notionConnector.ts:222-300 | nothing resolved means no download and no change. The download aborts, without writes, exactly when the resolved item is a full database whose note cannot be built. A rejected entries query leaves only the entries folder made. Otherwise the note holds its text with the metadata applied, the outcome names the resolved kind, and no path but the note and the entry notes changes |
| NotionSync.DownloadItem | src/notionConnector.ts:252-294 | a resolved object is aborted exactly when its note cannot be built. A rejected entries query leaves only the entries folder made. Otherwise the note is written with its metadata applied, and no path but the note and the entry notes changes |
| NotionSync.DownloadedEntries | src/notionConnector.ts:252-256 | a download of a full database with a title whose query went through leaves each entry note, other than one on the note's own path, holding the projection of the last result with its id |
| NotionSync.EntryWrites | src/notionConnector.ts:252-256 | entries are written only for a full database whose query went through. Then the entries folder exists, every entry note holds the projection of the last result with its id, and no other path changes |
| NotionSync.DownloadedNote | src/notionConnector.ts:264-294 | after a download the note's header reads back as the current record, which carries the given id and the resolved kind |
| NotionSync.SyncCurrentPage | src/notionConnector.ts:302-321 | without an active note, or without a non-empty `notion-id`, nothing happens. Otherwise the note is downloaded with its recorded id and with its `notion-type` as the hint |
| NotionSync.SyncUsesRecordedKind | src/notionConnector.ts:318-320 | a note recorded as a page never triggers a database retrieval, and one recorded as a database never triggers a page retrieval |

## Left out

- Asynchrony is not modelled. Promises, the un-awaited `apply()` and `downloadFromNotionToFile` calls, and the message modals are dropped. Each download is modelled as running to completion in program order.
- The clock is an input. `window.moment()` becomes the sync time `now` given to a download and `clock(n)` for the entry at result index `n`.
- The Notion client is not modelled. `pages.retrieve`, `databases.retrieve` and `databases.query` are inputs to the model: a failure, a partial object, or a full object. A full database comes with the first result page of its query, or with the query's rejection.
- Pagination is left out. Only the first page of query results is processed, as in the source.
- The page renderer (`pageToMarkdown`, lines 49-56) and `annotatePlainText` are external libraries. They are taken as uninterpreted functions.
- Renderer rejections are not modelled, because the renderer is taken as a total function. When `pageToMarkdown` rejects for an entry (line 200), `syncDatabaseEntries` and the download stop there: the entries before it are written, and the note and its metadata are not. When it rejects for a page (line 239), the download stops before the note is touched.
- Store.CreateOrOverwrite: rejections of the vault calls are not modelled. A path that holds a folder passes the `exists` test and `adapter.write` then rejects. A rejection mid-loop (line 216) leaves the entries before it written and stops the download before the note is modified.
- FrontMatterHandler.Get: every key is treated as an own key of the record. In the source, a key naming an `Object.prototype` member behaves differently. `get("toString", d)` reads the inherited function rather than `d`, `remove("toString")` passes the `in` test and deletes nothing, and `set("__proto__", v)` creates no key.
- The metadata cache's own parsing and refresh timing are not modelled. The front matter it reports is a parameter. `SyncCurrentPage` takes one value for the `get` calls and another for the later metadata step.
- NotionSync.Download: the write of the note text is modelled as replacing the note's content, so `vault.modify` on a path that holds a folder, and its error, are not modelled.
- `downloadFromNotion` (lines 323-336), which creates the note and refuses folders, is not part of this model. `isTFile` is left out for the same reason.
- Vault paths are compared as plain strings. The vault's path normalisation is not modelled, so the model cannot tell whether `//note-entries` and `note-entries` name the same folder.
- `Object.keys` puts integer-like keys first. Keys here keep insertion order.
- Values in the cached front matter are taken as strings; YAML lists, numbers and dates are not modelled.
- HeaderBlock.ParseHeader is a reference reader for the `key: value` block format. It is not Obsidian's YAML parser, and the read-back lemmas (FrontMatterHandler.ApplyReadsBack, EntryProjector.EntryHeaderReadsBack, NotionSync.DownloadedNote) require line-safe values for that reason.
- FrontMatterHandler.ApplyFixpoint and FrontMatterHandler.ApplyIdempotent require a record in which no line looks like `---`. The source promises nothing for records whose values embed the closing fence.
- EntryProjector.DueDateFromProperty requires distinct property names, as the keys of a Notion properties object always are.
- The calendar marker is the four characters the source file holds (the UTF-8 bytes of the emoji read as Windows-1252) and a space. It is not decoded.
- Base64.Utf8 encodes every Unicode scalar value. Characters outside the Basic Multilingual Plane, which JavaScript holds as surrogate pairs, are not modelled separately.
- `src/main.ts`, `src/helpers.ts`, the modal files and the settings files hold plugin wiring, a `fetch` adapter and UI. They are not part of this model.

=== FILE: assoc.dfy ===
/** A front-matter record as JavaScript keeps it: string keys in insertion
    order, each key at most once.  Assigning to an existing key keeps its
    slot; assigning to a new key appends it; deleting closes the gap. */
module FrontMatterMap {
  import opened Optional
  import opened Strings

  datatype Entry = Entry(key: string, value: string)

  /** No key appears twice. */
  ghost predicate DistinctKeys(m: seq<Entry>)
  {
    forall i, j :: 0 <= i < j < |m| ==> m[i].key != m[j].key
  }

  type FrontMatter = m: seq<Entry> | DistinctKeys(m)

  /** `Object.keys(m)`, in order. */
  function Keys(m: seq<Entry>): (r: seq<string>)
    ensures |r| == |m|
    ensures forall i :: 0 <= i < |m| ==> r[i] == m[i].key
  {
    if |m| == 0 then [] else [m[0].key] + Keys(m[1..])
  }

  /** The keys of all entries but the last, then the last key. */
  lemma KeysInit(m: seq<Entry>)
    requires |m| > 0
    ensures Keys(m) == Keys(m[..|m| - 1]) + [m[|m| - 1].key]
  {
    var init := m[..|m| - 1];
    var s := Keys(init) + [m[|m| - 1].key];
    forall i | 0 <= i < |m|
      ensures Keys(m)[i] == s[i]
    {
      if i < |m| - 1 {
        assert s[i] == Keys(init)[i] == init[i].key;
      }
    }
    PointwiseEqual(Keys(m), s);
  }

  /** The keys of a record with one entry appended. */
  lemma KeysSnoc(m: seq<Entry>, e: Entry)
    ensures Keys(m + [e]) == Keys(m) + [e.key]
  {
    var s := Keys(m) + [e.key];
    assert forall i :: 0 <= i < |m| + 1 ==> Keys(m + [e])[i] == s[i];
    PointwiseEqual(Keys(m + [e]), s);
  }

  /** `m[k]`, `None` standing for `undefined`. */
  function Lookup(m: FrontMatter, k: string): (r: Option<string>)
    ensures r.Some? <==> k in Keys(m)
    ensures r.Some? ==> exists i :: 0 <= i < |m| && m[i] == Entry(k, r.value)
  {
    if |m| == 0 then None
    else if m[0].key == k then Some(m[0].value)
    else
      var r := Lookup(m[1..], k);
      assert Keys(m) == [m[0].key] + Keys(m[1..]);
      r
  }

  /** In a record with distinct keys the entry holding a key decides the lookup. */
  lemma LookupAt(m: FrontMatter, i: int)
    requires 0 <= i < |m|
    ensures Lookup(m, m[i].key) == Some(m[i].value)
  {
    var r := Lookup(m, m[i].key);
    var j :| 0 <= j < |m| && m[j] == Entry(m[i].key, r.value);
    assert i == j;
  }

  /** Every slot holding key `k` now holds `v`; the order is unchanged. */
  function Replace(m: FrontMatter, k: string, v: string): (r: FrontMatter)
    ensures |r| == |m| && Keys(r) == Keys(m)
    ensures forall i :: 0 <= i < |m| ==> r[i] == (if m[i].key == k then Entry(k, v) else m[i])
  {
    var r := seq(|m|, i requires 0 <= i < |m| => if m[i].key == k then Entry(k, v) else m[i]);
    assert Keys(r) == Keys(m);
    r
  }

  lemma ReplaceLookup(m: FrontMatter, k: string, v: string, k': string)
    requires k in Keys(m)
    ensures Lookup(Replace(m, k, v), k') == if k' == k then Some(v) else Lookup(m, k')
  {
    var r := Replace(m, k, v);
    if k' in Keys(m) {
      var j :| 0 <= j < |m| && m[j].key == k';
      LookupAt(r, j);
      LookupAt(m, j);
    }
  }

  lemma AppendLookup(m: FrontMatter, k: string, v: string, k': string)
    requires k !in Keys(m)
    ensures DistinctKeys(m + [Entry(k, v)])
    ensures Lookup(m + [Entry(k, v)], k') == if k' == k then Some(v) else Lookup(m, k')
  {
    var r: FrontMatter := m + [Entry(k, v)];
    KeysSnoc(m, Entry(k, v));
    if k' == k {
      LookupAt(r, |m|);
    } else if k' in Keys(m) {
      var j :| 0 <= j < |m| && m[j].key == k';
      LookupAt(r, j);
      LookupAt(m, j);
    }
  }

  /** `m[k] = v`: an existing key keeps its slot, a new key is appended. */
  function Put(m: FrontMatter, k: string, v: string): (r: FrontMatter)
    ensures Lookup(r, k) == Some(v)
    ensures forall k' :: k' != k ==> Lookup(r, k') == Lookup(m, k')
    ensures k in Keys(m) ==> Keys(r) == Keys(m)
    ensures k !in Keys(m) ==> Keys(r) == Keys(m) + [k]
  {
    if k in Keys(m) then
      forall k' ensures Lookup(Replace(m, k, v), k') == if k' == k then Some(v) else Lookup(m, k') {
        ReplaceLookup(m, k, v, k');
      }
      Replace(m, k, v)
    else
      forall k' ensures Lookup(m + [Entry(k, v)], k') == if k' == k then Some(v) else Lookup(m, k') {
        AppendLookup(m, k, v, k');
      }
      KeysSnoc(m, Entry(k, v));
      m + [Entry(k, v)]
  }

  /** With distinct keys, a lookup finds exactly the entries of the record. */
  lemma LookupIsMember(m: FrontMatter, k: string, v: string)
    ensures Lookup(m, k) == Some(v) <==> Entry(k, v) in m
  {
    if Entry(k, v) in m {
      var i :| 0 <= i < |m| && m[i] == Entry(k, v);
      LookupAt(m, i);
    }
  }

  /** The keys `ks` with every `k` left out, in their order. */
  function Without(ks: seq<string>, k: string): seq<string>
  {
    if |ks| == 0 then [] else (if ks[0] == k then [] else [ks[0]]) + Without(ks[1..], k)
  }

  /** The keys of `ks` that `known` does not hold, in the order of `ks`. */
  function NewKeys(ks: seq<string>, known: seq<string>): seq<string>
  {
    if |ks| == 0 then []
    else NewKeys(ks[..|ks| - 1], known) + (if ks[|ks| - 1] in known then [] else [ks[|ks| - 1]])
  }

  /** `delete m[k]`: the entries without key `k`, in their order. */
  function Delete(m: FrontMatter, k: string): (r: FrontMatter)
    ensures forall e :: e in r <==> e in m && e.key != k
    ensures Keys(r) == Without(Keys(m), k)
    ensures k !in Keys(r)
    ensures k !in Keys(m) ==> r == m
  {
    if |m| == 0 then m
    else
      var rest := Delete(m[1..], k);
      KeysCons(m[0], m[1..]);
      assert [m[0]] + m[1..] == m;
      if m[0].key == k then rest
      else
        KeysCons(m[0], rest);
        ConsDistinct(m[0], rest);
        [m[0]] + rest
  }

  /** The keys of a record with one entry in front. */
  lemma KeysCons(e: Entry, m: seq<Entry>)
    ensures Keys([e] + m) == [e.key] + Keys(m)
  {
    assert ([e] + m)[1..] == m;
  }

  /** An entry whose key the record does not hold can go in front of it. */
  lemma ConsDistinct(e: Entry, m: FrontMatter)
    requires forall x :: x in m ==> x.key != e.key
    ensures DistinctKeys([e] + m)
  {
    var r := [e] + m;
    forall i, j | 0 <= i < j < |r|
      ensures r[i].key != r[j].key
    {
      if i == 0 {
        assert r[j] == m[j - 1];
      } else {
        assert r[i] == m[i - 1] && r[j] == m[j - 1];
      }
    }
  }

  lemma DeleteLookup(m: FrontMatter, k: string, k': string)
    ensures Lookup(Delete(m, k), k') == if k' == k then None else Lookup(m, k')
  {
    var r := Delete(m, k);
    var a, b := Lookup(r, k'), Lookup(m, k');
    if a.Some? { LookupIsMember(r, k', a.value); LookupIsMember(m, k', a.value); }
    if b.Some? { LookupIsMember(r, k', b.value); LookupIsMember(m, k', b.value); }
  }

  /** `{...base, ...top}`: the keys of `base` in their slots, then the keys
      only `top` has in `top`'s order. */
  function Overlay(base: FrontMatter, top: FrontMatter): (r: FrontMatter)
    ensures Keys(r) == Keys(base) + NewKeys(Keys(top), Keys(base))
    ensures forall k :: k in Keys(r) <==> k in Keys(base) || k in Keys(top)
    decreases |top|
  {
    if |top| == 0 then base
    else
      var init: FrontMatter := top[..|top| - 1];
      var last := top[|top| - 1];
      KeysInit(top);
      assert last.key !in Keys(init) by {
        forall i | 0 <= i < |init| ensures Keys(init)[i] != last.key {
          assert init[i] == top[i];
        }
      }
      PutKeysStep(Overlay(base, init), Keys(base), Keys(init), last.key, last.value);
      Put(Overlay(base, init), last.key, last.value)
  }

  /** Assigning a key not yet seen among `ks` extends the key order of an
      overlay by that key exactly when `known` lacks it. */
  lemma PutKeysStep(rec: FrontMatter, known: seq<string>, ks: seq<string>, k: string, v: string)
    requires Keys(rec) == known + NewKeys(ks, known)
    requires forall x :: x in Keys(rec) <==> x in known || x in ks
    requires k !in ks
    ensures Keys(Put(rec, k, v)) == known + NewKeys(ks + [k], known)
  {
    assert (ks + [k])[..|ks|] == ks;
    if k !in known {
      assert known + NewKeys(ks + [k], known) == Keys(rec) + [k];
    }
  }

  /** On a key both records hold, `top`'s value wins; otherwise the record
      holding the key decides. */
  lemma {:induction false} OverlayLookup(base: FrontMatter, top: FrontMatter, k: string)
    ensures Lookup(Overlay(base, top), k) == if k in Keys(top) then Lookup(top, k) else Lookup(base, k)
    decreases |top|
  {
    if |top| > 0 {
      var init: FrontMatter := top[..|top| - 1];
      var last := top[|top| - 1];
      assert Overlay(base, top) == Put(Overlay(base, init), last.key, last.value);
      OverlayLookup(base, init, k);
      if k == last.key {
        LookupAt(top, |top| - 1);
      } else {
        InitLookup(top, k);
      }
    }
  }

  /** A key other than the last one is looked up among the entries before it. */
  lemma InitLookup(m: FrontMatter, k: string)
    requires |m| > 0 && k != m[|m| - 1].key
    ensures k in Keys(m) <==> k in Keys(m[..|m| - 1])
    ensures Lookup(m, k) == Lookup(m[..|m| - 1], k)
  {
    var init: FrontMatter := m[..|m| - 1];
    KeysInit(m);
    if k in Keys(init) {
      var j :| 0 <= j < |init| && init[j].key == k;
      LookupAt(m, j);
      LookupAt(init, j);
    }
  }

  /** Assigning the same key twice leaves the record as the second assignment
      alone would: the later value wins and the key keeps one slot. */
  lemma PutPut(m: FrontMatter, k: string, v: string, w: string)
    ensures Put(Put(m, k, v), k, w) == Put(m, k, w)
  {
    if k in Keys(m) {
      PutPutPresent(m, k, v, w);
    } else {
      PutPutAbsent(m, k, v, w);
    }
  }

  lemma PutPutPresent(m: FrontMatter, k: string, v: string, w: string)
    requires k in Keys(m)
    ensures Put(Put(m, k, v), k, w) == Put(m, k, w)
  {
    var m1 := Replace(m, k, v);
    assert Put(m, k, v) == m1 by { PutPresent(m, k, v); }
    assert Put(m1, k, w) == Replace(m1, k, w) by { PutPresent(m1, k, w); }
    assert Put(m, k, w) == Replace(m, k, w) by { PutPresent(m, k, w); }
    ReplaceTwice(m, k, v, w);
  }

  /** For a key the record holds, assignment replaces in place. */
  lemma PutPresent(m: FrontMatter, k: string, v: string)
    requires k in Keys(m)
    ensures Put(m, k, v) == Replace(m, k, v)
  {
  }

  lemma ReplaceTwice(m: FrontMatter, k: string, v: string, w: string)
    ensures Replace(Replace(m, k, v), k, w) == Replace(m, k, w)
  {
    var r := Replace(Replace(m, k, v), k, w);
    var s := Replace(m, k, w);
    forall i | 0 <= i < |m|
      ensures r[i] == s[i]
    {
      ReplaceTwiceAt(m, k, v, w, i);
    }
    PointwiseEqual(r, s);
  }

  lemma ReplaceTwiceAt(m: FrontMatter, k: string, v: string, w: string, i: nat)
    requires i < |m|
    ensures Replace(Replace(m, k, v), k, w)[i] == Replace(m, k, w)[i]
  {
    var m1 := Replace(m, k, v);
    if m[i].key == k {
      assert m1[i] == Entry(k, v);
    } else {
      assert m1[i] == m[i];
    }
  }

  lemma PutPutAbsent(m: FrontMatter, k: string, v: string, w: string)
    requires k !in Keys(m)
    ensures Put(Put(m, k, v), k, w) == Put(m, k, w)
  {
    var m1 := Put(m, k, v);
    assert m1 == m + [Entry(k, v)] && Put(m, k, w) == m + [Entry(k, w)];
    assert k in Keys(m1);
    assert Put(m1, k, w) == Replace(m1, k, w) by { PutPresent(m1, k, w); }
    ReplaceAppended(m, m1, k, v, w);
  }

  /** Replacing the value of an appended key replaces the appended entry. */
  lemma ReplaceAppended(m: FrontMatter, m1: FrontMatter, k: string, v: string, w: string)
    requires k !in Keys(m) && m1 == m + [Entry(k, v)]
    ensures Replace(m1, k, w) == m + [Entry(k, w)]
  {
    var r := Replace(m1, k, w);
    var s := m + [Entry(k, w)];
    forall i | 0 <= i < |m1|
      ensures r[i] == s[i]
    {
      if i < |m| {
        assert m[i].key == Keys(m)[i];
      }
    }
    PointwiseEqual(r, s);
  }
}

=== FILE: base64.dfy ===
/** `Buffer.from(id).toString('base64')`: the UTF-8 bytes of a string in the
    base 64 encoding of section 4 of RFC 4648 (standard alphabet, `=` padding),
    together with the decoder that undoes it. */
module Base64 {
  import opened Optional

  type Byte = b: int | 0 <= b < 256

  /** The UTF-8 encoding of one Unicode scalar value. */
  function Utf8Char(c: char): (r: seq<Byte>)
    ensures 1 <= |r| <= 4
    ensures (c as int) < 0x80 <==> |r| == 1
    ensures (c as int) < 0x80 ==> r[0] == c as int
  {
    var v := c as int;
    if v < 0x80 then [v]
    else if v < 0x800 then [0xC0 + v / 0x40, 0x80 + v % 0x40]
    else if v < 0x1_0000 then [0xE0 + v / 0x1000, 0x80 + (v / 0x40) % 0x40, 0x80 + v % 0x40]
    else [0xF0 + v / 0x4_0000, 0x80 + (v / 0x1000) % 0x40, 0x80 + (v / 0x40) % 0x40, 0x80 + v % 0x40]
  }

  /** `Buffer.from(s)`: the UTF-8 bytes of a string. */
  function Utf8(s: string): (r: seq<Byte>)
    ensures |r| >= |s|
    ensures (forall i :: 0 <= i < |s| ==> (s[i] as int) < 0x80) ==>
              |r| == |s| && forall i :: 0 <= i < |s| ==> r[i] == s[i] as int
  {
    if |s| == 0 then [] else Utf8Char(s[0]) + Utf8(s[1..])
  }

  /** The characters of the alphabet: `A`-`Z`, `a`-`z`, `0`-`9`, `+`, `/`. */
  predicate IsAlphabetChar(c: char)
  {
    'A' <= c <= 'Z' || 'a' <= c <= 'z' || '0' <= c <= '9' || c == '+' || c == '/'
  }

  /** The character for a 6-bit value (Table 1 of RFC 4648). */
  function SextetChar(v: nat): (c: char)
    requires v < 64
    ensures IsAlphabetChar(c)
  {
    if v < 26 then (('A' as int) + v) as char
    else if v < 52 then (('a' as int) + v - 26) as char
    else if v < 62 then (('0' as int) + v - 52) as char
    else if v == 62 then '+'
    else '/'
  }

  /** The 6-bit value a character of the alphabet stands for. */
  function CharSextet(c: char): (v: nat)
    requires IsAlphabetChar(c)
    ensures v < 64 && SextetChar(v) == c
  {
    if 'A' <= c <= 'Z' then (c as int) - ('A' as int)
    else if 'a' <= c <= 'z' then (c as int) - ('a' as int) + 26
    else if '0' <= c <= '9' then (c as int) - ('0' as int) + 52
    else if c == '+' then 62
    else 63
  }

  /** Distinct values get distinct characters, so the table can be read back. */
  lemma SextetRoundTrip(v: nat)
    requires v < 64
    ensures CharSextet(SextetChar(v)) == v
  {
  }

  predicate IsEncodedChar(c: char)
  {
    IsAlphabetChar(c) || c == '='
  }

  /** Three bytes as four characters. */
  function EncodeGroup(b0: Byte, b1: Byte, b2: Byte): string
  {
    [SextetChar(b0 / 4), SextetChar((b0 % 4) * 16 + b1 / 16),
     SextetChar((b1 % 16) * 4 + b2 / 64), SextetChar(b2 % 64)]
  }

  function Encode(bytes: seq<Byte>): (r: string)
    ensures |r| == 4 * ((|bytes| + 2) / 3)
    ensures forall i :: 0 <= i < |r| ==> IsEncodedChar(r[i])
  {
    if |bytes| == 0 then ""
    else if |bytes| == 1 then
      [SextetChar(bytes[0] / 4), SextetChar((bytes[0] % 4) * 16), '=', '=']
    else if |bytes| == 2 then
      [SextetChar(bytes[0] / 4), SextetChar((bytes[0] % 4) * 16 + bytes[1] / 16),
       SextetChar((bytes[1] % 16) * 4), '=']
    else
      var rest := Encode(bytes[3..]);
      assert (|bytes| + 2) / 3 == (|bytes[3..]| + 2) / 3 + 1;
      EncodeGroup(bytes[0], bytes[1], bytes[2]) + rest
  }

  function DecodeGroup(a: nat, b: nat, c: nat, d: nat): (r: seq<Byte>)
    requires a < 64 && b < 64 && c < 64 && d < 64
    ensures |r| == 3
  {
    [a * 4 + b / 16, (b % 16) * 16 + c / 4, (c % 4) * 64 + d]
  }

  /** The last four characters, which may carry one or two `=`. The bits a
      padded group leaves over must be zero (section 3.5 of RFC 4648), so
      every accepted text is the encoding of what it decodes to. */
  function DecodeFinal(q: string): Option<seq<Byte>>
    requires |q| == 4
  {
    if !IsAlphabetChar(q[0]) || !IsAlphabetChar(q[1]) then None
    else
      var a, b := CharSextet(q[0]), CharSextet(q[1]);
      if q[2] == '=' && q[3] == '=' then
        if b % 16 == 0 then Some([a * 4 + b / 16]) else None
      else if IsAlphabetChar(q[2]) && q[3] == '=' then
        var c := CharSextet(q[2]);
        if c % 4 == 0 then Some([a * 4 + b / 16, (b % 16) * 16 + c / 4]) else None
      else if IsAlphabetChar(q[2]) && IsAlphabetChar(q[3]) then
        Some(DecodeGroup(a, b, CharSextet(q[2]), CharSextet(q[3])))
      else None
  }

  function Decode(s: string): Option<seq<Byte>>
  {
    if |s| == 0 then Some([])
    else if |s| < 4 then None
    else if |s| == 4 then DecodeFinal(s)
    else if !(IsAlphabetChar(s[0]) && IsAlphabetChar(s[1]) && IsAlphabetChar(s[2]) && IsAlphabetChar(s[3])) then None
    else
      match Decode(s[4..])
      case None => None
      case Some(rest) =>
        Some(DecodeGroup(CharSextet(s[0]), CharSextet(s[1]), CharSextet(s[2]), CharSextet(s[3])) + rest)
  }

  lemma GroupRoundTrip(b0: Byte, b1: Byte, b2: Byte)
    ensures DecodeGroup(b0 / 4, (b0 % 4) * 16 + b1 / 16, (b1 % 16) * 4 + b2 / 64, b2 % 64) == [b0, b1, b2]
  {
    var b := (b0 % 4) * 16 + b1 / 16;
    var c := (b1 % 16) * 4 + b2 / 64;
    assert b / 16 == b0 % 4 && b % 16 == b1 / 16;
    assert c / 4 == b1 % 16 && c % 4 == b2 / 64;
  }

  lemma DecodeEncodeOne(b0: Byte)
    ensures Decode(Encode([b0])) == Some([b0])
  {
    SextetRoundTrip(b0 / 4);
    SextetRoundTrip((b0 % 4) * 16);
    assert (b0 % 4) * 16 / 16 == b0 % 4;
  }

  lemma DecodeEncodeTwo(b0: Byte, b1: Byte)
    ensures Decode(Encode([b0, b1])) == Some([b0, b1])
  {
    var b := (b0 % 4) * 16 + b1 / 16;
    var c := (b1 % 16) * 4;
    SextetRoundTrip(b0 / 4);
    SextetRoundTrip(b);
    SextetRoundTrip(c);
    assert b / 16 == b0 % 4 && b % 16 == b1 / 16;
    assert c / 4 == b1 % 16;
    var e := Encode([b0, b1]);
    assert e == [SextetChar(b0 / 4), SextetChar(b), SextetChar(c), '='];
    assert DecodeFinal(e) == Some([b0 / 4 * 4 + b / 16, (b % 16) * 16 + c / 4]);
  }

  lemma DecodeEncodeGroup(b0: Byte, b1: Byte, b2: Byte)
    ensures var q := EncodeGroup(b0, b1, b2);
            |q| == 4 && (forall i :: 0 <= i < 4 ==> IsAlphabetChar(q[i])) &&
            DecodeGroup(CharSextet(q[0]), CharSextet(q[1]), CharSextet(q[2]), CharSextet(q[3])) == [b0, b1, b2]
  {
    SextetRoundTrip(b0 / 4);
    SextetRoundTrip((b0 % 4) * 16 + b1 / 16);
    SextetRoundTrip((b1 % 16) * 4 + b2 / 64);
    SextetRoundTrip(b2 % 64);
    GroupRoundTrip(b0, b1, b2);
  }

  /** A full group in front of a non-empty remainder decodes to its three
      bytes in front of the remainder's bytes. */
  lemma DecodeStep(q: string, rest: string)
    requires |q| == 4 && forall i :: 0 <= i < 4 ==> IsAlphabetChar(q[i])
    requires |rest| > 0
    ensures Decode(rest).Some? ==>
      Decode(q + rest) == Some(DecodeGroup(CharSextet(q[0]), CharSextet(q[1]), CharSextet(q[2]), CharSextet(q[3])) + Decode(rest).value)
  {
    var s := q + rest;
    assert s[..4] == q && s[4..] == rest;
    assert s[0] == q[0] && s[1] == q[1] && s[2] == q[2] && s[3] == q[3];
  }

  lemma DecodeEncodeThree(bytes: seq<Byte>)
    requires |bytes| == 3
    ensures Decode(Encode(bytes)) == Some(bytes)
  {
    var q := EncodeGroup(bytes[0], bytes[1], bytes[2]);
    DecodeEncodeGroup(bytes[0], bytes[1], bytes[2]);
    assert Encode(bytes[3..]) == "";
    assert Encode(bytes) == q;
    assert q[2] != '=' && q[3] != '=';
    assert Decode(q) == DecodeFinal(q);
    assert bytes == [bytes[0], bytes[1], bytes[2]];
  }

  lemma FirstThree(s: seq<Byte>)
    requires |s| >= 3
    ensures [s[0], s[1], s[2]] + s[3..] == s
  {
  }

  /** A group in front of a remainder that round-trips round-trips too. */
  lemma DecodeEncodeMore(bytes: seq<Byte>)
    requires |bytes| > 3
    requires Decode(Encode(bytes[3..])) == Some(bytes[3..])
    ensures Decode(Encode(bytes)) == Some(bytes)
  {
    var q := EncodeGroup(bytes[0], bytes[1], bytes[2]);
    var rest := Encode(bytes[3..]);
    DecodeEncodeGroup(bytes[0], bytes[1], bytes[2]);
    assert Encode(bytes) == q + rest;
    assert |rest| > 0;
    assert forall i :: 0 <= i < 4 ==> IsAlphabetChar(q[i]);
    DecodeStep(q, rest);
    assert Decode(rest) == Some(bytes[3..]);
    assert Decode(q + rest) == Some([bytes[0], bytes[1], bytes[2]] + bytes[3..]);
    FirstThree(bytes);
  }

  /** Decoding undoes encoding, for every byte sequence. */
  lemma {:induction false} DecodeEncode(bytes: seq<Byte>)
    ensures Decode(Encode(bytes)) == Some(bytes)
  {
    if |bytes| == 1 {
      DecodeEncodeOne(bytes[0]);
      assert bytes == [bytes[0]];
    } else if |bytes| == 2 {
      DecodeEncodeTwo(bytes[0], bytes[1]);
      assert bytes == [bytes[0], bytes[1]];
    } else if |bytes| == 3 {
      DecodeEncodeThree(bytes);
    } else if |bytes| > 3 {
      DecodeEncode(bytes[3..]);
      DecodeEncodeMore(bytes);
    }
  }

  /** An accepted text of four or more characters decodes to at least one byte. */
  lemma DecodeNonEmpty(s: string)
    requires |s| > 0 && Decode(s).Some?
    ensures |Decode(s).value| > 0
  {
  }

  /** Encoding the bytes of an accepted final group gives the group back. */
  lemma EncodeDecodeFinal(q: string)
    requires |q| == 4 && DecodeFinal(q).Some?
    ensures Encode(DecodeFinal(q).value) == q
  {
    var a, b := CharSextet(q[0]), CharSextet(q[1]);
    var bytes := DecodeFinal(q).value;
    if q[2] == '=' && q[3] == '=' {
      assert bytes == [a * 4 + b / 16];
      PartsBy4(a, b / 16);
      assert bytes[0] / 4 == a && (bytes[0] % 4) * 16 == b;
    } else if q[3] == '=' {
      var c := CharSextet(q[2]);
      assert bytes == [a * 4 + b / 16, (b % 16) * 16 + c / 4];
      PartsBy4(a, b / 16);
      PartsBy16(b % 16, c / 4);
      assert bytes[0] / 4 == a && (bytes[0] % 4) * 16 + bytes[1] / 16 == b;
      assert (bytes[1] % 16) * 4 == c;
    } else {
      var c, d := CharSextet(q[2]), CharSextet(q[3]);
      EncodeDecodeGroup(a, b, c, d);
      assert Encode(bytes[3..]) == "";
    }
  }

  /** Encoding a decoded full group gives its four characters back. */
  lemma EncodeDecodeGroup(a: nat, b: nat, c: nat, d: nat)
    requires a < 64 && b < 64 && c < 64 && d < 64
    ensures var g := DecodeGroup(a, b, c, d);
            EncodeGroup(g[0], g[1], g[2]) == [SextetChar(a), SextetChar(b), SextetChar(c), SextetChar(d)]
  {
    var g := DecodeGroup(a, b, c, d);
    PartsBy4(a, b / 16);
    PartsBy16(b % 16, c / 4);
    PartsBy64(c % 4, d);
    assert g[0] / 4 == a && (g[0] % 4) * 16 + g[1] / 16 == b;
    assert (g[1] % 16) * 4 + g[2] / 64 == c && g[2] % 64 == d;
  }

  /** A number written as a quotient and a remainder below 4, 16 or 64
      splits back into them. */
  lemma PartsBy4(q: nat, r: nat)
    requires r < 4
    ensures (q * 4 + r) / 4 == q && (q * 4 + r) % 4 == r
  {
  }

  lemma PartsBy16(q: nat, r: nat)
    requires r < 16
    ensures (q * 16 + r) / 16 == q && (q * 16 + r) % 16 == r
  {
  }

  lemma PartsBy64(q: nat, r: nat)
    requires r < 64
    ensures (q * 64 + r) / 64 == q && (q * 64 + r) % 64 == r
  {
  }

  /** Every text the decoder accepts is the encoding of what it decodes to:
      the decoder accepts exactly one text per byte sequence. */
  lemma {:induction false} EncodeDecode(s: string)
    requires Decode(s).Some?
    ensures Encode(Decode(s).value) == s
  {
    if |s| == 4 {
      EncodeDecodeFinal(s);
    } else if |s| > 4 {
      EncodeDecode(s[4..]);
      EncodeDecodeMore(s);
    }
  }

  /** A full group in front of a remainder that encodes back encodes back
      too. */
  lemma EncodeDecodeMore(s: string)
    requires |s| > 4 && Decode(s).Some?
    requires Decode(s[4..]).Some? && Encode(Decode(s[4..]).value) == s[4..]
    ensures Encode(Decode(s).value) == s
  {
    var rest := s[4..];
    DecodeNonEmpty(rest);
    var a, b, c, d := CharSextet(s[0]), CharSextet(s[1]), CharSextet(s[2]), CharSextet(s[3]);
    var g := DecodeGroup(a, b, c, d);
    var tail := Decode(rest).value;
    assert Decode(s).value == g + tail;
    EncodeDecodeGroup(a, b, c, d);
    EncodeCons(g, tail);
    SplitFour(s);
  }

  /** A text of four or more characters is its first four characters in
      front of the rest. */
  lemma SplitFour(s: string)
    requires |s| >= 4
    ensures s == [s[0], s[1], s[2], s[3]] + s[4..]
  {
  }

  /** Three bytes in front of a non-empty remainder encode as their group in
      front of the remainder's encoding. */
  lemma EncodeCons(g: seq<Byte>, tail: seq<Byte>)
    requires |g| == 3 && |tail| > 0
    ensures Encode(g + tail) == EncodeGroup(g[0], g[1], g[2]) + Encode(tail)
  {
    var bytes := g + tail;
    assert bytes[0] == g[0] && bytes[1] == g[1] && bytes[2] == g[2] && bytes[3..] == tail;
  }
}

=== FILE: entries.dfy ===
/** The note written for one database entry (a full page of the database's
    query result): a front-matter header with the page id, the sync time and
    one line per property, the rendered page body, and, for pages with a
    `Complete` checkbox, a task line. */
module EntryProjector {
  import opened Optional
  import opened Strings
  import opened NotionModel
  import opened FrontMatterMap
  import opened HeaderBlock

  /** JavaScript truthiness of an optional string: present and non-empty. */
  predicate Truthy(o: Option<string>)
  {
    o.Some? && |o.value| > 0
  }

  /** `o ? o : ""`. */
  function TruthyText(o: Option<string>): (r: string)
    ensures Truthy(o) <==> |r| > 0
    ensures Truthy(o) ==> r == o.value
  {
    if Truthy(o) then o.value else ""
  }

  /** The time-zone suffix: a space and the zone when there is one. */
  function ZoneSuffix(d: DateRange): string
  {
    if Truthy(d.timeZone) then " " + d.timeZone.value else ""
  }

  /** A date value, built the way the connector builds it: the start, the
      ` -- ` separator only when both ends are present, the end whenever it
      is present, then the zone. A missing date renders as nothing. */
  function DateText(date: Option<DateRange>): (r: string)
    ensures date.None? ==> r == ""
    ensures date.Some? && !Truthy(date.value.start) && !Truthy(date.value.end) ==>
              r == ZoneSuffix(date.value)
    ensures date.Some? && Truthy(date.value.start) && !Truthy(date.value.end) ==>
              r == date.value.start.value + ZoneSuffix(date.value)
    ensures date.Some? && !Truthy(date.value.start) && Truthy(date.value.end) ==>
              r == date.value.end.value + ZoneSuffix(date.value)
    ensures date.Some? && Truthy(date.value.start) && Truthy(date.value.end) ==>
              r == date.value.start.value + " -- " + date.value.end.value + ZoneSuffix(date.value)
  {
    var start := if date.Some? then date.value.start else None;
    var end := if date.Some? then date.value.end else None;
    var zone := if date.Some? then date.value.timeZone else None;
    var s0 := TruthyText(start);
    var s1 := s0 + (if Truthy(start) && Truthy(end) then " -- " else "");
    var s2 := s1 + TruthyText(end);
    s2 + (if Truthy(zone) then " " + zone.value else "")
  }

  /** One mention: `- [[<name>]]` for a full user (a `null` name prints as
      `null`), nothing for a partial one. */
  function UserItem(u: User): string
  {
    match u
    case FullUser(name) => "- [[" + name.GetOr("null") + "]]"
    case PartialUser(_) => ""
  }

  function UserItems(users: seq<User>): (r: seq<string>)
    ensures |r| == |users|
    ensures forall i :: 0 <= i < |users| ==> r[i] == UserItem(users[i])
  {
    seq(|users|, i requires 0 <= i < |users| => UserItem(users[i]))
  }

  /** A people value: every mention on its own line behind a two-space
      indent; with nobody mentioned, the bare line break and indent. */
  function PeopleText(users: seq<User>): (r: string)
    ensures |users| == 0 ==> r == "\n  "
    ensures |users| > 0 ==> r == Concat(PrefixEach("\n  ", UserItems(users)))
  {
    var r := "\n  " + Join(UserItems(users), "\n  ");
    if |users| > 0 then LeadingSeparatorJoin("\n  ", UserItems(users)); r else r
  }

  /** A checkbox value: `true` or `false`. */
  function BoolText(b: bool): (r: string)
    ensures r == "true" || r == "false"
    ensures b <==> r == "true"
  {
    if b then "true" else "false"
  }

  /** Each title run's text through the annotator, in run order. */
  function AnnotatedRuns(runs: seq<RichText>, annotate: Annotator): (r: seq<string>)
    ensures |r| == |runs|
    ensures forall i :: 0 <= i < |runs| ==> r[i] == annotate(runs[i].plainText, runs[i].annotations)
  {
    seq(|runs|, i requires 0 <= i < |runs| => annotate(runs[i].plainText, runs[i].annotations))
  }

  /** The annotated runs of two run sequences, one after the other. */
  lemma AnnotatedRunsAppend(a: seq<RichText>, b: seq<RichText>, annotate: Annotator)
    ensures AnnotatedRuns(a + b, annotate) == AnnotatedRuns(a, annotate) + AnnotatedRuns(b, annotate)
  {
    var l, r := AnnotatedRuns(a + b, annotate), AnnotatedRuns(a, annotate) + AnnotatedRuns(b, annotate);
    forall i | 0 <= i < |l| ensures l[i] == r[i] {
      if i >= |a| { assert (a + b)[i] == b[i - |a|]; }
    }
  }

  /** The title of two non-empty run sequences is their two titles with one
      space between, whatever spaces the runs hold: with the title of one
      run, this fixes the title for every number of runs. */
  lemma TitleTextAppend(a: seq<RichText>, b: seq<RichText>, annotate: Annotator)
    requires |a| > 0 && |b| > 0
    ensures TitleText(a + b, annotate) == TitleText(a, annotate) + " " + TitleText(b, annotate)
  {
    AnnotatedRunsAppend(a, b, annotate);
    JoinAppend(AnnotatedRuns(a, annotate), AnnotatedRuns(b, annotate), " ");
  }

  /** The title runs, each through the annotator, joined with single spaces:
      empty for no runs, the one annotated run alone, and in general a text
      that splits at its spaces back into the annotated runs when none of
      them holds a space. */
  function TitleText(runs: seq<RichText>, annotate: Annotator): (r: string)
    ensures |runs| == 0 ==> r == ""
    ensures |runs| == 1 ==> r == annotate(runs[0].plainText, runs[0].annotations)
    ensures |runs| > 0 && (forall i :: 0 <= i < |runs| ==> ' ' !in AnnotatedRuns(runs, annotate)[i]) ==>
              Split(r, ' ') == AnnotatedRuns(runs, annotate)
  {
    var parts := AnnotatedRuns(runs, annotate);
    if |runs| > 0 && forall i :: 0 <= i < |runs| ==> ' ' !in parts[i] then
      SplitJoin(parts, ' ');
      Join(parts, " ")
    else Join(parts, " ")
  }

  /** The value written after a property's key; the kinds the connector does
      not handle (selects among them) leave it empty. */
  function PropertyText(v: PropertyValue, annotate: Annotator): (r: string)
    ensures v.People? ==> r == PeopleText(v.users)
    ensures v.CreatedTime? ==> r == v.time
    ensures v.Checkbox? ==> r == BoolText(v.checked) && (r == "true" <==> v.checked)
    ensures v.Select? || v.MultiSelect? || v.OtherValue? ==> r == ""
    ensures v.Date? ==> r == DateText(v.date)
    ensures v.Title? ==> r == TitleText(v.runs, annotate)
  {
    match v
    case People(users) => PeopleText(users)
    case Checkbox(b) => BoolText(b)
    case CreatedTime(t) => t
    case Date(d) => DateText(d)
    case Title(runs) => TitleText(runs, annotate)
    case Select(_) => ""
    case MultiSelect(_) => ""
    case OtherValue(_) => ""
  }

  /** The header field of one property: its name with spaces turned into
      hyphens, and its value. */
  function PropertyField(p: Property, annotate: Annotator): (e: Entry)
    ensures e.key == Hyphenate(p.name) && e.value == PropertyText(p.value, annotate)
    ensures |e.key| == |p.name| && ' ' !in e.key
  {
    Entry(Hyphenate(p.name), PropertyText(p.value, annotate))
  }

  const IdKey: string := "notion-id"
  const SyncTimeKey: string := "notion-sync-time"

  /** How a property becomes a header field. */
  type FieldMaker = Property -> Entry

  /** The connector's field for each property, under the given annotator. */
  function FieldMakerOf(annotate: Annotator): (f: FieldMaker)
    ensures forall p :: f(p) == PropertyField(p, annotate)
  {
    p => PropertyField(p, annotate)
  }

  /** The page id, the sync time, then one field per property in property
      order, each made by `field`. */
  function Fields(id: string, now: string, props: seq<Property>, field: FieldMaker): (r: seq<Entry>)
    ensures |r| == |props| + 2
    ensures r[0] == Entry(IdKey, id) && r[1] == Entry(SyncTimeKey, now)
    ensures forall i :: 0 <= i < |props| ==> r[i + 2] == field(props[i])
  {
    [Entry(IdKey, id), Entry(SyncTimeKey, now)] + seq(|props|, i requires 0 <= i < |props| => field(props[i]))
  }

  /** The fields of an entry's header, in order: the page id, the sync time,
      then one field per property in property order. */
  function HeaderFields(page: Page, now: string, annotate: Annotator): (r: seq<Entry>)
    ensures |r| == |page.properties| + 2
    ensures r[0] == Entry(IdKey, page.id) && r[1] == Entry(SyncTimeKey, now)
    ensures forall i :: 0 <= i < |page.properties| ==> r[i + 2] == PropertyField(page.properties[i], annotate)
  {
    Fields(page.id, now, page.properties, FieldMakerOf(annotate))
  }

  /** The text of the last title property, or empty when there is none. */
  function LastTitle(props: seq<Property>, annotate: Annotator): string
  {
    if |props| == 0 then ""
    else
      var last := props[|props| - 1];
      if last.value.Title? then TitleText(last.value.runs, annotate)
      else LastTitle(props[..|props| - 1], annotate)
  }

  /** The date text of the last date property named exactly `Due Date`, or
      empty when there is none. */
  function DueDateOf(props: seq<Property>): string
  {
    if |props| == 0 then ""
    else
      var last := props[|props| - 1];
      if last.name == DueDateName && last.value.Date? then DateText(last.value.date)
      else DueDateOf(props[..|props| - 1])
  }

  const DueDateName: string := "Due Date"
  const CompleteName: string := "Complete"
  const PriorityName: string := "Priority"

  /** The calendar marker in front of a due date. The source file holds the
      UTF-8 bytes of the calendar emoji read back as Windows-1252 text; these
      are those characters, as written. */
  const Calendar: string := "\U{00F0}\U{0178}\U{201C}\U{2026} "

  /** The priority shown on a task line: the selected option's name and a
      space when the page has a select property `Priority` (an empty choice
      prints as `undefined`), otherwise nothing. */
  function PriorityText(props: seq<Property>): (r: string)
    ensures FindProperty(props, PriorityName) == Some(Select(None)) ==> r == "undefined "
    ensures forall o :: FindProperty(props, PriorityName) == Some(Select(Some(o))) ==> r == o.name + " "
    ensures r == "" <==> !(FindProperty(props, PriorityName).Some? && FindProperty(props, PriorityName).value.Select?)
  {
    match FindProperty(props, PriorityName)
    case Some(Select(o)) => (if o.Some? then o.value.name else "undefined") + " "
    case _ => ""
  }

  function DueText(dueDate: string): (r: string)
    ensures |dueDate| == 0 <==> r == ""
  {
    if |dueDate| > 0 then Calendar + dueDate else ""
  }

  /** The checkbox of a task line: `[x]` when checked, `[ ]` otherwise,
      after a line break and a list dash. */
  function TaskMark(checked: bool): (r: string)
    ensures |r| == 7 && r[..5] == "\n - [" && (r[5] == 'x' <==> checked) && r[6] == ']'
    ensures !checked ==> r[5] == ' '
  {
    if checked then "\n - [x]" else "\n - [ ]"
  }

  /** What follows the checkbox: the title between spaces, the priority,
      the calendar marker and due date when there is one, and a line break. */
  function TaskBody(props: seq<Property>, title: string, dueDate: string): (r: string)
    ensures var front := " " + title + " " + PriorityText(props);
            |r| > |front| && r[..|front|] == front && r[|front|..] == DueText(dueDate) + "\n"
    ensures |r| >= 1 && r[|r| - 1] == '\n'
  {
    var front := " " + title + " " + PriorityText(props);
    var r := front + DueText(dueDate) + "\n";
    assert r[..|front|] == front && r[|front|..] == DueText(dueDate) + "\n";
    r
  }

  /** A text ending in `b` ends in `b`, whatever stands in front. */
  lemma EndsWith(a: string, b: string)
    ensures (a + b)[|a + b| - |b|..] == b
  {
  }

  /** The due date, behind the calendar marker, ends the task line just
      before its line break; with no due date the line carries no marker. */
  lemma TaskBodyDue(props: seq<Property>, title: string, dueDate: string)
    ensures var r := TaskBody(props, title, dueDate);
            |dueDate| > 0 ==> r[..|r| - 1] == " " + title + " " + PriorityText(props) + Calendar + dueDate
    ensures |dueDate| == 0 ==> TaskBody(props, title, dueDate) == " " + title + " " + PriorityText(props) + "\n"
  {
    var r := TaskBody(props, title, dueDate);
    var front := " " + title + " " + PriorityText(props) + DueText(dueDate);
    assert r == front + "\n";
    assert r[..|r| - 1] == front;
  }

  /** The task line: present exactly when the page has a checkbox property
      `Complete`, ticked exactly when that box is checked. */
  function TaskText(props: seq<Property>, title: string, dueDate: string): (r: string)
    ensures r != "" <==> FindProperty(props, CompleteName).Some? && FindProperty(props, CompleteName).value.Checkbox?
    ensures r != "" ==> r == TaskMark(FindProperty(props, CompleteName).value.checked) + TaskBody(props, title, dueDate)
  {
    match FindProperty(props, CompleteName)
    case Some(Checkbox(c)) => TaskMark(c) + TaskBody(props, title, dueDate)
    case _ => ""
  }

  /** A task line reads back as checked exactly when the `Complete` box is
      checked and ends in a line break. */
  lemma TaskLineMark(props: seq<Property>, title: string, dueDate: string)
    requires FindProperty(props, CompleteName).Some? && FindProperty(props, CompleteName).value.Checkbox?
    ensures var r := TaskText(props, title, dueDate);
            var checked := FindProperty(props, CompleteName).value.checked;
            |r| >= 8 && r[..5] == "\n - [" && (r[5] == 'x' <==> checked) && r[6] == ']' && r[|r| - 1] == '\n'
  {
    var m := TaskMark(FindProperty(props, CompleteName).value.checked);
    var b := TaskBody(props, title, dueDate);
    var r := m + b;
    assert r[..5] == m[..5] && r[5] == m[5] && r[6] == m[6];
    assert r[|r| - 1] == b[|b| - 1];
  }

  /** Dropping the last character of `a + b` drops it from `b`. */
  lemma DropLast(a: string, b: string)
    requires |b| >= 1
    ensures (a + b)[..|a + b| - 1] == a + b[..|b| - 1]
  {
  }

  /** A task line shows the calendar marker with the due date right before
      its line break whenever the due date is non-empty. */
  lemma TaskLineDue(props: seq<Property>, title: string, dueDate: string)
    requires FindProperty(props, CompleteName).Some? && FindProperty(props, CompleteName).value.Checkbox?
    requires |dueDate| > 0
    ensures var r := TaskText(props, title, dueDate);
            |r| > |Calendar| + |dueDate| && r[|r| - 1 - |Calendar + dueDate|..|r| - 1] == Calendar + dueDate
  {
    var m := TaskMark(FindProperty(props, CompleteName).value.checked);
    var front := " " + title + " " + PriorityText(props);
    TaskTextDueShape(props, title, dueDate);
    SliceBeforeLast(m, front, Calendar + dueDate, "\n");
  }

  /** A task line with a due date, split at the due date. */
  lemma TaskTextDueShape(props: seq<Property>, title: string, dueDate: string)
    requires FindProperty(props, CompleteName).Some? && FindProperty(props, CompleteName).value.Checkbox?
    requires |dueDate| > 0
    ensures TaskText(props, title, dueDate) ==
            TaskMark(FindProperty(props, CompleteName).value.checked) +
            ((" " + title + " " + PriorityText(props)) + (Calendar + dueDate) + "\n")
  {
    TaskBodyDueShape(props, title, dueDate);
  }

  lemma TaskBodyDueShape(props: seq<Property>, title: string, dueDate: string)
    requires |dueDate| > 0
    ensures TaskBody(props, title, dueDate) == (" " + title + " " + PriorityText(props)) + (Calendar + dueDate) + "\n"
  {
  }

  /** The whole note of an entry: its header is the front-matter
      serialisation of its fields, followed by a line break, the rendered
      page and the task line. */
  function EntryContent(page: Page, now: string, annotate: Annotator, render: Renderer): (r: string)
    ensures var head := OpenFence + IdKey + ": " + page.id + "\n";
            |r| >= |head| && r[..|head|] == head
  {
    var fields := HeaderFields(page, now, annotate);
    var tail := "\n" + render(page.id) +
      TaskText(page.properties, LastTitle(page.properties, annotate), DueDateOf(page.properties));
    SerialisedHead(fields);
    Serialise(fields) + tail
  }

  /** A serialised header begins with the fence and its first line. */
  lemma SerialisedHead(m: seq<Entry>)
    requires |m| > 0
    ensures var head := OpenFence + m[0].key + ": " + m[0].value + "\n";
            |Serialise(m)| >= |head| && Serialise(m)[..|head|] == head
  {
    var lines := SuffixEach(PairTexts(m), "\n");
    assert lines == [lines[0]] + lines[1..];
    assert Concat(lines) == lines[0] + Concat(lines[1..]);
    assert Serialise(m) == (OpenFence + lines[0]) + (Concat(lines[1..]) + "---");
  }

  /** The serialised lines of the first `k + 1` fields are those of the
      first `k` and the line of field `k`. */
  lemma LinesSnoc(m: seq<Entry>, k: nat)
    requires k < |m|
    ensures Concat(SuffixEach(PairTexts(m[..k + 1]), "\n")) ==
            Concat(SuffixEach(PairTexts(m[..k]), "\n")) + (PairText(m[k]) + "\n")
  {
    var longer := SuffixEach(PairTexts(m[..k + 1]), "\n");
    var shorter := SuffixEach(PairTexts(m[..k]), "\n") + [PairText(m[k]) + "\n"];
    forall i | 0 <= i < k + 1
      ensures longer[i] == shorter[i]
    {
      assert m[..k + 1][i] == m[i];
      if i < k {
        assert m[..k][i] == m[i];
      }
    }
    PointwiseEqual(longer, shorter);
    ConcatSnoc(SuffixEach(PairTexts(m[..k]), "\n"), PairText(m[k]) + "\n");
  }

  /** The header text up to and including the first `k` fields' lines,
      as the connector accumulates it. */
  function HeaderText(m: seq<Entry>, k: nat): string
    requires k <= |m|
  {
    if k == 0 then OpenFence else HeaderText(m, k - 1) + (PairText(m[k - 1]) + "\n")
  }

  lemma HeaderTextStep(m: seq<Entry>, k: nat)
    requires 0 < k <= |m|
    ensures HeaderText(m, k) == HeaderText(m, k - 1) + (PairText(m[k - 1]) + "\n")
  {
  }

  /** The accumulated text is the fence and the first `k` lines. */
  lemma {:induction false} HeaderTextLines(m: seq<Entry>, k: nat)
    requires k <= |m|
    ensures HeaderText(m, k) == OpenFence + Concat(SuffixEach(PairTexts(m[..k]), "\n"))
  {
    if k == 0 {
      assert SuffixEach(PairTexts(m[..0]), "\n") == [];
    } else {
      var before := Concat(SuffixEach(PairTexts(m[..k - 1]), "\n"));
      var line := PairText(m[k - 1]) + "\n";
      assert HeaderText(m, k) == HeaderText(m, k - 1) + line;
      HeaderTextLines(m, k - 1);
      assert Concat(SuffixEach(PairTexts(m[..k]), "\n")) == before + line by { LinesSnoc(m, k - 1); }
      AppendAssoc(OpenFence, before, line);
    }
  }

  lemma HeaderTextAll(m: seq<Entry>)
    ensures HeaderText(m, |m|) == OpenFence + Concat(SuffixEach(PairTexts(m), "\n"))
  {
    HeaderTextLines(m, |m|);
    WholePrefix(m);
  }

  /** The first two header lines: the page id and the sync time. */
  lemma FirstLines(id: string, now: string, props: seq<Property>, field: FieldMaker)
    ensures HeaderText(Fields(id, now, props, field), 2) ==
            OpenFence + (IdKey + ": " + id + "\n") + (SyncTimeKey + ": " + now + "\n")
  {
    var fields := Fields(id, now, props, field);
    assert HeaderText(fields, 1) == OpenFence + (PairText(fields[0]) + "\n");
  }

  /** The line of the property at `i` follows the first `i + 2` lines. */
  lemma NextLine(id: string, now: string, props: seq<Property>, field: FieldMaker, i: nat)
    requires i < |props|
    ensures HeaderText(Fields(id, now, props, field), i + 3) ==
            HeaderText(Fields(id, now, props, field), i + 2) + (PairText(field(props[i])) + "\n")
  {
    var fields := Fields(id, now, props, field);
    assert fields[i + 2] == field(props[i]);
    HeaderTextStep(fields, i + 3);
  }

  /** The entry note spelled out piece by piece. */
  lemma EntryContentPieces(page: Page, now: string, annotate: Annotator, render: Renderer)
    ensures EntryContent(page, now, annotate, render) ==
            OpenFence + Concat(SuffixEach(PairTexts(HeaderFields(page, now, annotate)), "\n")) + "---" + "\n" +
            render(page.id) + TaskText(page.properties, LastTitle(page.properties, annotate), DueDateOf(page.properties))
  {
    var fields := HeaderFields(page, now, annotate);
    var body := Concat(SuffixEach(PairTexts(fields), "\n"));
    var task := TaskText(page.properties, LastTitle(page.properties, annotate), DueDateOf(page.properties));
    assert Serialise(fields) == OpenFence + body + "---";
    RegroupTail(OpenFence + body, "---", "\n", render(page.id), task);
  }

  /** The value of a property, and the title and due date tracked after it. */
  method StepProperty(p: Property, annotate: Annotator, title: string, dueDate: string)
    returns (value: string, title': string, dueDate': string)
    ensures value == PropertyText(p.value, annotate)
    ensures title' == if p.value.Title? then TitleText(p.value.runs, annotate) else title
    ensures dueDate' == if p.name == DueDateName && p.value.Date? then DateText(p.value.date) else dueDate
  {
    value, title', dueDate' := "", title, dueDate;
    match p.value {
      case People(users) =>
        value := PeopleText(users);
      case Checkbox(b) =>
        value := BoolText(b);
      case CreatedTime(t) =>
        value := t;
      case Date(d) =>
        value := DateText(d);
        if p.name == DueDateName {
          dueDate' := value;
        }
      case Title(runs) =>
        title' := TitleText(runs, annotate);
        value := title';
      case Select(_) =>
      case MultiSelect(_) =>
      case OtherValue(_) =>
    }
  }

  lemma TrackSnoc(props: seq<Property>, i: nat, annotate: Annotator)
    requires i < |props|
    ensures LastTitle(props[..i + 1], annotate) ==
            if props[i].value.Title? then TitleText(props[i].value.runs, annotate) else LastTitle(props[..i], annotate)
    ensures DueDateOf(props[..i + 1]) ==
            if props[i].name == DueDateName && props[i].value.Date? then DateText(props[i].value.date) else DueDateOf(props[..i])
  {
    assert props[..i + 1][..i] == props[..i];
  }

  /** One turn of the loop over the properties: the header line of the
      property at `i` is appended, and the title and due date are updated. */
  method AppendProperty(page: Page, now: string, annotate: Annotator, i: nat,
                        content: string, title: string, dueDate: string)
    returns (content': string, title': string, dueDate': string)
    requires i < |page.properties|
    requires content == HeaderText(Fields(page.id, now, page.properties, FieldMakerOf(annotate)), i + 2)
    requires title == LastTitle(page.properties[..i], annotate)
    requires dueDate == DueDateOf(page.properties[..i])
    ensures content' == HeaderText(Fields(page.id, now, page.properties, FieldMakerOf(annotate)), i + 3)
    ensures title' == LastTitle(page.properties[..i + 1], annotate)
    ensures dueDate' == DueDateOf(page.properties[..i + 1])
  {
    var p := page.properties[i];
    var value;
    value, title', dueDate' := StepProperty(p, annotate, title, dueDate);
    TrackSnoc(page.properties, i, annotate);
    NextLine(page.id, now, page.properties, FieldMakerOf(annotate), i);
    content' := content + (Hyphenate(p.name) + ": " + value + "\n");
  }

  /** Appends one header line per property to the first two, tracking the
      title and the due date on the way, as the connector's loop over the
      properties does. */
  method AppendProperties(page: Page, now: string, annotate: Annotator, head: string)
    returns (content: string, title: string, dueDate: string)
    requires head == HeaderText(Fields(page.id, now, page.properties, FieldMakerOf(annotate)), 2)
    ensures content == HeaderText(Fields(page.id, now, page.properties, FieldMakerOf(annotate)), |page.properties| + 2)
    ensures title == LastTitle(page.properties, annotate)
    ensures dueDate == DueDateOf(page.properties)
  {
    content, title, dueDate := head, "", "";
    var i := 0;
    while i < |page.properties|
      invariant 0 <= i <= |page.properties|
      invariant content == HeaderText(Fields(page.id, now, page.properties, FieldMakerOf(annotate)), i + 2)
      invariant title == LastTitle(page.properties[..i], annotate)
      invariant dueDate == DueDateOf(page.properties[..i])
    {
      content, title, dueDate := AppendProperty(page, now, annotate, i, content, title, dueDate);
      i := i + 1;
    }
    assert page.properties[..i] == page.properties by { WholePrefix(page.properties); }
  }

  /** The entry note built the way the connector builds it: the header text
      is appended line by line while the title and the due date are tracked,
      then the page body and the task line follow. */
  method ProjectEntry(page: Page, now: string, annotate: Annotator, render: Renderer) returns (content: string)
    ensures content == EntryContent(page, now, annotate, render)
  {
    FirstLines(page.id, now, page.properties, FieldMakerOf(annotate));
    HeaderTextAll(HeaderFields(page, now, annotate));
    content := OpenFence + (IdKey + ": " + page.id + "\n") + (SyncTimeKey + ": " + now + "\n");
    var title, dueDate;
    content, title, dueDate := AppendProperties(page, now, annotate, content);
    EntryContentPieces(page, now, annotate, render);
    content := content + "---" + "\n";
    content := content + render(page.id);
    content := content + TaskText(page.properties, title, dueDate);
  }

  /** The header of an entry note reads back, line by line, as its fields,
      whenever no field breaks the line format. */
  lemma EntryHeaderReadsBack(page: Page, now: string, annotate: Annotator, render: Renderer)
    requires AllLineSafe(HeaderFields(page, now, annotate))
    ensures ParseHeader(EntryContent(page, now, annotate, render)) == Some(HeaderFields(page, now, annotate))
  {
    var fields := HeaderFields(page, now, annotate);
    var tail := "\n" + render(page.id) +
      TaskText(page.properties, LastTitle(page.properties, annotate), DueDateOf(page.properties));
    ParseSerialised(fields, tail);
  }

  /** The tracked title is the text of the last title property. */
  lemma {:induction false} LastTitleIs(props: seq<Property>, i: nat, annotate: Annotator)
    requires i < |props| && props[i].value.Title?
    requires forall j :: i < j < |props| ==> !props[j].value.Title?
    ensures LastTitle(props, annotate) == TitleText(props[i].value.runs, annotate)
    decreases |props|
  {
    if i < |props| - 1 {
      var init := props[..|props| - 1];
      assert init[i] == props[i];
      assert forall j :: i < j < |init| ==> init[j] == props[j];
      LastTitleIs(init, i, annotate);
    }
  }

  /** Without a title property the tracked title stays empty. */
  lemma {:induction false} NoTitle(props: seq<Property>, annotate: Annotator)
    requires forall j :: 0 <= j < |props| ==> !props[j].value.Title?
    ensures LastTitle(props, annotate) == ""
    decreases |props|
  {
    if |props| > 0 {
      var init := props[..|props| - 1];
      assert forall j :: 0 <= j < |init| ==> init[j] == props[j];
      NoTitle(init, annotate);
    }
  }

  /** With distinct names, looking a property up by name finds it. */
  lemma FindPropertyAt(props: seq<Property>, i: nat)
    requires DistinctPropertyNames(props) && i < |props|
    ensures FindProperty(props, props[i].name) == Some(props[i].value)
  {
  }

  /** The due date a looked-up `Due Date` value gives: its date text when it
      is a date, and nothing otherwise. */
  function DueFrom(o: Option<PropertyValue>): string
  {
    match o
    case Some(Date(d)) => DateText(d)
    case _ => ""
  }

  /** The due date is the date text of the property named `Due Date` when
      that property is a date, and empty otherwise. */
  lemma {:induction false} DueDateFromProperty(props: seq<Property>)
    requires DistinctPropertyNames(props)
    ensures DueDateOf(props) == DueFrom(FindProperty(props, DueDateName))
    decreases |props|
  {
    if |props| > 0 {
      var init := props[..|props| - 1];
      assert DistinctPropertyNames(init);
      DueDateFromProperty(init);
      DueDateStep(props);
    }
  }

  /** The inductive step: the claim for all but the last property carries
      over to the whole sequence. */
  lemma DueDateStep(props: seq<Property>)
    requires |props| > 0 && DistinctPropertyNames(props)
    requires DueDateOf(props[..|props| - 1]) == DueFrom(FindProperty(props[..|props| - 1], DueDateName))
    ensures DueDateOf(props) == DueFrom(FindProperty(props, DueDateName))
  {
    var n := |props| - 1;
    if props[n].name == DueDateName {
      FindPropertyAt(props, n);
      if !props[n].value.Date? {
        FindLastNotBefore(props, DueDateName);
      }
    } else {
      FindBeforeLast(props, DueDateName);
    }
  }

  /** A lookup of a name the last property does not carry is a lookup in
      the properties before it. */
  lemma FindBeforeLast(props: seq<Property>, name: string)
    requires |props| > 0 && DistinctPropertyNames(props) && props[|props| - 1].name != name
    ensures FindProperty(props, name) == FindProperty(props[..|props| - 1], name)
  {
    var init := props[..|props| - 1];
    assert forall j :: 0 <= j < |init| ==> init[j] == props[j];
    assert DistinctPropertyNames(init);
    if FindProperty(props, name).Some? {
      var j :| 0 <= j < |props| && props[j].name == name;
      FindPropertyAt(props, j);
      FindPropertyAt(init, j);
    }
  }

  /** With distinct names, the name of the last property occurs nowhere
      before it. */
  lemma FindLastNotBefore(props: seq<Property>, name: string)
    requires |props| > 0 && DistinctPropertyNames(props) && props[|props| - 1].name == name
    ensures FindProperty(props[..|props| - 1], name) == None
  {
    var init := props[..|props| - 1];
    assert forall j :: 0 <= j < |init| ==> init[j].name != name;
  }
}

=== FILE: handler.dfy ===
/** `FrontMatterHandler`: values set on a note's front matter are kept
    pending over what the metadata cache reports for the note, and `Apply`
    writes the combined record into the note's text. */
module FrontMatterHandler {
  import opened Optional
  import opened FrontMatterMap
  import opened HeaderBlock

  /** The layout key the metadata cache adds to every parsed header. */
  const PositionKey: string := "position"

  /** `cached` is the note's front matter as the metadata cache reports it
      (empty when the cache has none); `pending` holds the values set on
      this handler, in the order they were first set. */
  datatype Handler = Handler(cached: FrontMatter, pending: FrontMatter)

  /** A fresh handler for a note. */
  function NewHandler(cached: FrontMatter): (h: Handler)
    ensures h.cached == cached && |h.pending| == 0
  {
    Handler(cached, [])
  }

  /** `set(key, value)`. */
  function Set(h: Handler, k: string, v: string): (r: Handler)
    ensures r.cached == h.cached
    ensures Lookup(r.pending, k) == Some(v)
    ensures forall k' :: k' != k ==> Lookup(r.pending, k') == Lookup(h.pending, k')
  {
    h.(pending := Put(h.pending, k, v))
  }

  /** `remove(key)`: forgets a pending value; the cached record is untouched. */
  function Remove(h: Handler, k: string): (r: Handler)
    ensures r.cached == h.cached
    ensures k !in Keys(r.pending)
    ensures forall k' :: k' != k ==> Lookup(r.pending, k') == Lookup(h.pending, k')
  {
    if k in Keys(h.pending) then
      var r := h.(pending := Delete(h.pending, k));
      forall k' | k' != k
        ensures Lookup(r.pending, k') == Lookup(h.pending, k')
      {
        DeleteLookup(h.pending, k, k');
      }
      r
    else h
  }

  /** `currentFrontMatter()`: the cached record overlaid with the pending
      values, without the layout key. */
  function Current(h: Handler): (r: FrontMatter)
    ensures PositionKey !in Keys(r)
  {
    Delete(Overlay(h.cached, h.pending), PositionKey)
  }

  /** A key of the current record takes its pending value if it has one and
      its cached value otherwise; the layout key is never there. */
  lemma CurrentLookup(h: Handler, k: string)
    ensures Lookup(Current(h), k) ==
      if k == PositionKey then None
      else if k in Keys(h.pending) then Lookup(h.pending, k)
      else Lookup(h.cached, k)
  {
    DeleteLookup(Overlay(h.cached, h.pending), PositionKey, k);
    OverlayLookup(h.cached, h.pending, k);
  }

  /** The keys of the current record: the cached keys in their order, then
      the keys only set on the handler, less the layout key. */
  lemma CurrentKeys(h: Handler, k: string)
    ensures k in Keys(Current(h)) <==> k != PositionKey && (k in Keys(h.cached) || k in Keys(h.pending))
    ensures Keys(Current(h)) == Without(Keys(h.cached) + NewKeys(Keys(h.pending), Keys(h.cached)), PositionKey)
  {
    CurrentLookup(h, k);
  }

  /** `get(key, default)`. */
  function Get(h: Handler, k: string, default: string): (r: string)
    ensures k == PositionKey ==> r == default
    ensures k != PositionKey && k in Keys(h.pending) ==> Some(r) == Lookup(h.pending, k)
    ensures k != PositionKey && k !in Keys(h.pending) ==> r == Lookup(h.cached, k).GetOr(default)
  {
    CurrentLookup(h, k);
    Lookup(Current(h), k).GetOr(default)
  }

  /** After `set(k, v)` the handler reads `v` back for `k`, whatever the cache
      held, unless `k` is the layout key. */
  lemma GetAfterSet(h: Handler, k: string, v: string, default: string)
    requires k != PositionKey
    ensures Get(Set(h, k, v), k, default) == v
  {
  }

  /** Setting a key twice is setting it once to the later value. */
  lemma SetTwice(h: Handler, k: string, v: string, w: string)
    ensures Set(Set(h, k, v), k, w) == Set(h, k, w)
  {
    PutPut(h.pending, k, v, w);
  }

  /** `remove` only forgets pending values: afterwards the handler reads the
      cached value again, or the default when the cache has none. */
  lemma GetAfterRemove(h: Handler, k: string, default: string)
    requires k != PositionKey
    ensures Get(Remove(h, k), k, default) == Lookup(h.cached, k).GetOr(default)
  {
  }

  /** One call on a handler. */
  datatype Call = SetCall(key: string, value: string) | RemoveCall(key: string)

  function Run(h: Handler, calls: seq<Call>): (r: Handler)
    ensures r.cached == h.cached
    decreases |calls|
  {
    if |calls| == 0 then h
    else
      var next := match calls[0]
        case SetCall(k, v) => Set(h, k, v)
        case RemoveCall(k) => Remove(h, k);
      Run(next, calls[1..])
  }

  /** A key that no call sets, and that holds no pending value to begin
      with, keeps its cached value through any run of calls. */
  lemma {:induction false} UnsetKeyKeepsCache(h: Handler, calls: seq<Call>, k: string)
    requires k != PositionKey && k !in Keys(h.pending)
    requires forall i :: 0 <= i < |calls| && calls[i].SetCall? ==> calls[i].key != k
    ensures Lookup(Current(Run(h, calls)), k) == Lookup(h.cached, k)
    decreases |calls|
  {
    if |calls| == 0 {
      CurrentLookup(h, k);
    } else {
      var next := match calls[0]
        case SetCall(k0, v) => Set(h, k0, v)
        case RemoveCall(k0) => Remove(h, k0);
      assert k !in Keys(next.pending) by {
        if calls[0].SetCall? {
          assert calls[0].key != k;
        }
      }
      UnsetKeyKeepsCache(next, calls[1..], k);
    }
  }

  /** `apply()` on the note's text `content`: the serialised current record
      replaces the text the header pattern matches (the shortest match, its
      leading white space included); with no match it goes in front of the
      text, followed by a newline. */
  function Apply(h: Handler, content: string): (r: string)
    ensures (forall lead: nat, close: nat :: !PatternMatch(content, lead, close)) ==>
              r == Serialise(Current(h)) + "\n" + content
    ensures forall lead: nat, close: nat :: ShortestMatch(content, lead, close) ==>
              r == Serialise(Current(h)) + content[close + |CloseFence|..]
  {
    KeptMeaning(content);
    Serialise(Current(h)) + Kept(content)
  }

  /** What follows the written record: the text after the matched header,
      or a newline and the whole text when there is no header. */
  function Kept(content: string): string
  {
    match FindHeader(content)
    case Some(span) => content[span.End()..]
    case None => "\n" + content
  }

  lemma KeptMeaning(content: string)
    ensures (forall lead: nat, close: nat :: !PatternMatch(content, lead, close)) ==>
              Kept(content) == "\n" + content
    ensures forall lead: nat, close: nat :: ShortestMatch(content, lead, close) ==>
              close + |CloseFence| <= |content| && Kept(content) == content[close + |CloseFence|..]
  {
    forall lead: nat, close: nat | ShortestMatch(content, lead, close)
      ensures close + |CloseFence| <= |content| && Kept(content) == content[close + |CloseFence|..]
    {
      ShortestMatchFound(content, lead, close);
    }
  }

  /** Writing a record over a note that starts with that very record changes
      nothing, provided the record is non-empty and none of its lines looks
      like the closing fence. */
  lemma ApplyFixpoint(h: Handler, rest: string)
    requires |Current(h)| > 0 && FenceFree(Current(h))
    ensures Apply(h, Serialise(Current(h)) + rest) == Serialise(Current(h)) + rest
  {
    var m := Current(h);
    FindSerialised(m, rest);
    SerialiseShape(m);
  }

  /** Applying twice is applying once. */
  lemma ApplyIdempotent(h: Handler, content: string)
    requires |Current(h)| > 0 && FenceFree(Current(h))
    ensures Apply(h, Apply(h, content)) == Apply(h, content)
  {
    ApplyFixpoint(h, Kept(content));
  }

  /** Whatever the note held, after `apply()` its header reads back as the
      current record, when that record is non-empty and line-safe. */
  lemma ApplyReadsBack(h: Handler, content: string)
    requires |Current(h)| > 0 && AllLineSafe(Current(h))
    ensures ParseHeader(Apply(h, content)) == Some(Current(h))
  {
    ParseSerialised(Current(h), Kept(content));
  }

  /** With nothing to write and no header in the note, `apply()` still adds a
      leading newline, so repeating it keeps growing the note. */
  lemma EmptyApplyGrows(h: Handler, content: string)
    requires |Current(h)| == 0
    requires FindHeader(content).None?
    ensures Apply(h, content) == "\n" + content
    ensures Apply(h, Apply(h, content)) == "\n\n" + content
  {
    assert Serialise(Current(h)) == "";
    NoHeaderAfterNewline(content);
    assert "\n" + ("\n" + content) == "\n\n" + content;
  }

  /** A newline in front of a text without a header does not make one. */
  lemma NoHeaderAfterNewline(content: string)
    requires FindHeader(content).None?
    ensures FindHeader("\n" + content).None?
  {
    forall lead: nat, close: nat
      ensures !PatternMatch("\n" + content, lead, close)
    {
      if PatternMatch("\n" + content, lead, close) {
        ShiftMatch(content, lead, close);
      }
    }
  }

  /** A match behind a leading newline is a match one place earlier without it. */
  lemma ShiftMatch(content: string, lead: nat, close: nat)
    requires PatternMatch("\n" + content, lead, close)
    ensures lead >= 1 && close >= 1 && PatternMatch(content, lead - 1, close - 1)
  {
    var s := "\n" + content;
    assert s[lead] == '-';
    assert lead >= 1;
    assert s[lead..lead + 4] == content[lead - 1..lead + 3];
    assert s[close..close + 4] == content[close - 1..close + 3];
    forall i | 0 <= i < lead - 1
      ensures IsJsSpace(content[i])
    {
      assert content[i] == s[i + 1];
    }
  }
}

=== FILE: header.dfy ===
/** The front-matter block at the head of a note: where it is, how a record
    is written as one, and how such a block reads back as a record.

    The block is located as the pattern `^\s*?---\n([\s\S]*?)\n---` locates
    it: optional leading white space, an opening `---` line, then the
    shortest stretch of text up to the first newline followed by `---`. */
module HeaderBlock {
  import opened Optional
  import opened Strings
  import opened FrontMatterMap

  const OpenFence: string := "---\n"
  const CloseFence: string := "\n---"

  /** The characters JavaScript's `\s` matches. */
  predicate IsJsSpace(c: char)
  {
    || c == '\t' || c == '\n' || c == '\U{000B}' || c == '\U{000C}' || c == '\r' || c == ' '
    || c == '\U{00A0}' || c == '\U{1680}' || ('\U{2000}' <= c <= '\U{200A}')
    || c == '\U{2028}' || c == '\U{2029}' || c == '\U{202F}' || c == '\U{205F}'
    || c == '\U{3000}' || c == '\U{FEFF}'
  }

  /** The length of the longest run of white space that starts the text. */
  function LeadingSpace(s: string): (n: nat)
    ensures n <= |s|
    ensures forall i :: 0 <= i < n ==> IsJsSpace(s[i])
    ensures n < |s| ==> !IsJsSpace(s[n])
  {
    if |s| == 0 || !IsJsSpace(s[0]) then 0
    else
      var n := 1 + LeadingSpace(s[1..]);
      assert forall i :: 1 <= i < n ==> s[i] == s[1..][i - 1];
      n
  }

  /** A match of the pattern: `lead` white-space characters, the opening
      fence at `lead`, and a closing fence at `close`. */
  ghost predicate PatternMatch(s: string, lead: nat, close: nat)
  {
    && OccursAt(s, OpenFence, lead)
    && OccursAt(s, CloseFence, close)
    && lead + |OpenFence| <= close
    && (forall i :: 0 <= i < lead ==> IsJsSpace(s[i]))
  }

  /** Where a header block sits: its lines run from `bodyStart` to `bodyEnd`,
      and the matched text is everything before `End()`. */
  datatype HeaderSpan = HeaderSpan(bodyStart: nat, bodyEnd: nat) {
    function End(): nat { bodyEnd + |CloseFence| }
  }

  /** The header block at the head of `s`, if there is one.  The pattern's
      lazy quantifiers prefer the least white space and then the shortest
      body; since no white-space character starts a fence, only the whole
      leading white space can precede the opening fence, and the span found
      is the pattern's own choice. */
  function FindHeader(s: string): (r: Option<HeaderSpan>)
    ensures r.None? <==> forall lead: nat, close: nat :: !PatternMatch(s, lead, close)
    ensures r.Some? ==>
      && r.value.bodyStart >= |OpenFence|
      && PatternMatch(s, r.value.bodyStart - |OpenFence|, r.value.bodyEnd)
      && r.value.End() <= |s|
      && forall lead: nat, close: nat :: PatternMatch(s, lead, close) ==>
           lead == r.value.bodyStart - |OpenFence| && r.value.bodyEnd <= close
  {
    var w := LeadingSpace(s);
    if !OccursAt(s, OpenFence, w) then
      NoMatchWithoutOpenFence(s, w);
      None
    else
      OnlyLeadCandidate(s, w);
      match IndexOf(s, CloseFence, w + |OpenFence|)
      case None => None
      case Some(j) =>
        assert PatternMatch(s, w, j);
        Some(HeaderSpan(w + |OpenFence|, j))
  }

  /** A match of the pattern that closes no later than any other. */
  ghost predicate ShortestMatch(s: string, lead: nat, close: nat)
  {
    PatternMatch(s, lead, close) && forall l': nat, c': nat :: PatternMatch(s, l', c') ==> close <= c'
  }

  /** The span found is the shortest match. */
  lemma ShortestMatchFound(s: string, lead: nat, close: nat)
    requires ShortestMatch(s, lead, close)
    ensures FindHeader(s).Some? && FindHeader(s).value.End() == close + |CloseFence|
  {
    var span := FindHeader(s).value;
    assert PatternMatch(s, span.bodyStart - |OpenFence|, span.bodyEnd);
  }

  /** A match can only put its opening fence after the whole leading white space. */
  lemma OnlyLeadCandidate(s: string, w: nat)
    requires w == LeadingSpace(s)
    ensures forall lead: nat, close: nat :: PatternMatch(s, lead, close) ==> lead == w
  {
    forall lead: nat, close: nat | PatternMatch(s, lead, close)
      ensures lead == w
    {
      assert s[lead] == OpenFence[0];
    }
  }

  lemma NoMatchWithoutOpenFence(s: string, w: nat)
    requires w == LeadingSpace(s)
    requires !OccursAt(s, OpenFence, w)
    ensures forall lead: nat, close: nat :: !PatternMatch(s, lead, close)
  {
    OnlyLeadCandidate(s, w);
  }

  /** `key: value`, one line of the block without its newline. */
  function PairText(e: Entry): string
  {
    e.key + ": " + e.value
  }

  function PairTexts(m: seq<Entry>): (r: seq<string>)
    ensures |r| == |m|
    ensures forall i :: 0 <= i < |m| ==> r[i] == PairText(m[i])
  {
    if |m| == 0 then [] else [PairText(m[0])] + PairTexts(m[1..])
  }

  /** `frontMatterToYaml`: nothing for an empty record; otherwise the opening
      fence, one `key: value` line per entry in record order, and the closing
      `---` with no newline after it. */
  function Serialise(m: seq<Entry>): (r: string)
    ensures r == "" <==> |m| == 0
  {
    if |m| == 0 then "" else OpenFence + Concat(SuffixEach(PairTexts(m), "\n")) + "---"
  }

  /** The serialised block of a non-empty record is the opening fence, the
      lines joined by newlines, and the closing fence. */
  lemma SerialiseShape(m: seq<Entry>)
    requires |m| > 0
    ensures Serialise(m) == OpenFence + Join(PairTexts(m), "\n") + CloseFence
  {
    var j := Join(PairTexts(m), "\n");
    TerminatedLines(PairTexts(m));
    Reassoc(OpenFence, j, "\n", "---");
    assert "\n" + "---" == CloseFence;
  }

  /** The lines of a serialised record cannot be mistaken for its closing fence. */
  ghost predicate FenceFree(m: seq<Entry>)
  {
    forall p: nat :: !OccursAt(Join(PairTexts(m), "\n"), CloseFence, p)
  }

  /** An entry the block can carry on one line and read back: no newline in
      key or value, no `: ` inside the key, and no key that starts like a
      fence. */
  ghost predicate LineSafe(e: Entry)
  {
    && '\n' !in e.key
    && '\n' !in e.value
    && (forall p: nat :: !OccursAt(e.key, ": ", p))
    && !(|e.key| >= 3 && e.key[..3] == "---")
  }

  ghost predicate AllLineSafe(m: seq<Entry>)
  {
    forall i :: 0 <= i < |m| ==> LineSafe(m[i])
  }

  /** One `key: value` line. */
  function ParseLine(l: string): (r: Option<Entry>)
    ensures r.Some? ==> PairText(r.value) == l
  {
    match IndexOf(l, ": ", 0)
    case None => None
    case Some(p) =>
      assert l == l[..p] + ": " + l[p + 2..];
      Some(Entry(l[..p], l[p + 2..]))
  }

  function ParseLines(ls: seq<string>): (r: Option<seq<Entry>>)
    ensures r.Some? ==> |r.value| == |ls|
  {
    if |ls| == 0 then Some([])
    else
      match (ParseLine(ls[0]), ParseLines(ls[1..]))
      case (Some(e), Some(rest)) => Some([e] + rest)
      case _ => None
  }

  /** Reads the header block back as a record: the block's text split into
      lines, each split at its first `: `. */
  function ParseHeader(s: string): (r: Option<seq<Entry>>)
    ensures r.Some? ==> FindHeader(s).Some?
  {
    match FindHeader(s)
    case None => None
    case Some(span) => ParseLines(Split(s[span.bodyStart..span.bodyEnd], '\n'))
  }

  lemma ParseLineSafe(e: Entry)
    requires LineSafe(e)
    ensures ParseLine(PairText(e)) == Some(e)
  {
    var l := PairText(e);
    var k := |e.key|;
    assert OccursAt(l, ": ", k);
    forall p: nat | p < k
      ensures !OccursAt(l, ": ", p)
    {
      if p + 2 <= k {
        assert l[p..p + 2] == e.key[p..p + 2];
        assert !OccursAt(e.key, ": ", p);
      } else {
        assert l[p + 1] == ':';
        assert l[p..p + 2][1] == l[p + 1];
      }
    }
    assert l[..k] == e.key && l[k + 2..] == e.value;
  }

  lemma {:induction false} ParseLinesSafe(m: seq<Entry>)
    requires AllLineSafe(m)
    ensures ParseLines(PairTexts(m)) == Some(m)
  {
    if |m| > 0 {
      ParseLineSafe(m[0]);
      ParseLinesSafe(m[1..]);
      assert PairTexts(m)[1..] == PairTexts(m[1..]);
      assert m == [m[0]] + m[1..];
    }
  }

  /** A line never starts with three hyphens, whatever follows it. */
  lemma PairTextStart(e: Entry, t: string)
    requires LineSafe(e)
    ensures !(|PairText(e) + t| >= 3 && (PairText(e) + t)[..3] == "---")
  {
    var l := PairText(e) + t;
    if |l| >= 3 {
      if |e.key| >= 3 {
        assert l[..3] == e.key[..3];
      } else {
        assert l[|e.key|] == ':';
        assert l[..3][|e.key|] == l[|e.key|];
      }
    }
  }

  /** Text without a newline holds no closing fence. */
  lemma NoFenceWithoutNewline(s: string)
    requires '\n' !in s
    ensures forall p: nat :: !OccursAt(s, CloseFence, p)
  {
    forall p: nat
      ensures !OccursAt(s, CloseFence, p)
    {
      if p + 4 <= |s| {
        assert s[p..p + 4][0] == s[p];
      }
    }
  }

  lemma JoinStartsWithFirst(xs: seq<string>, sep: string)
    requires |xs| >= 1
    ensures exists t: string :: Join(xs, sep) == xs[0] + t
  {
    if |xs| == 1 {
      assert Join(xs, sep) == xs[0] + "";
    } else {
      assert Join(xs, sep) == xs[0] + (sep + Join(xs[1..], sep));
    }
  }

  /** A line-safe entry's line holds no newline. */
  lemma PairTextNoNewline(e: Entry)
    requires LineSafe(e)
    ensures '\n' !in PairText(e)
  {
    assert PairText(e) == e.key + ": " + e.value;
  }

  /** A fence after the newline that ends line `l` would need the next line to
      start with three hyphens. */
  lemma NoFenceAtJoint(l: string, e: Entry, t: string)
    requires LineSafe(e)
    ensures !OccursAt(l + "\n" + (PairText(e) + t), CloseFence, |l|)
  {
    var u := PairText(e) + t;
    var j := l + "\n" + u;
    PairTextStart(e, t);
    assert CloseFence[1..] == "---";
    if |j| >= |l| + 4 {
      assert j[|l| + 1..|l| + 4] == u[..3];
      assert j[|l|..|l| + 4][1..] == j[|l| + 1..|l| + 4];
    }
  }

  /** Line-safe entries make a fence-free block. */
  lemma {:induction false} LineSafeFenceFree(m: seq<Entry>)
    requires AllLineSafe(m)
    ensures FenceFree(m)
  {
    var ls := PairTexts(m);
    var j := Join(ls, "\n");
    if |m| == 1 {
      PairTextNoNewline(m[0]);
      assert j == ls[0];
      NoFenceWithoutNewline(j);
    } else if |m| > 1 {
      LineSafeFenceFree(m[1..]);
      assert ls[1..] == PairTexts(m[1..]);
      var tail := Join(ls[1..], "\n");
      assert j == ls[0] + "\n" + tail;
      JoinStartsWithFirst(ls[1..], "\n");
      var t :| tail == ls[1..][0] + t;
      PairTextNoNewline(m[0]);
      NoFenceAtJoint(ls[0], m[1], t);
      forall p: nat
        ensures !OccursAt(j, CloseFence, p)
      {
        var h := |ls[0]|;
        if p + 4 <= |j| {
          if p < h {
            assert j[p] == ls[0][p];
            assert j[p..p + 4][0] == j[p];
          } else if p > h {
            var q: nat := p - h - 1;
            assert j[p..p + 4] == tail[q..q + 4];
            assert !OccursAt(tail, CloseFence, q);
          }
        }
      }
    }
  }

  /** In a serialised block followed by anything, the first closing fence
      after the opening one is the block's own. */
  lemma FindSerialised(m: seq<Entry>, rest: string)
    requires |m| > 0 && FenceFree(m)
    ensures var j := Join(PairTexts(m), "\n");
            FindHeader(Serialise(m) + rest) == Some(HeaderSpan(|OpenFence|, |OpenFence| + |j|))
  {
    var j := Join(PairTexts(m), "\n");
    SerialiseShape(m);
    var c := Serialise(m) + rest;
    assert c == OpenFence + j + CloseFence + rest;
    var e := |OpenFence| + |j|;
    assert LeadingSpace(c) == 0 by { assert c[0] == '-'; }
    assert OccursAt(c, OpenFence, 0);
    assert OccursAt(c, CloseFence, e);
    forall p: nat | |OpenFence| <= p < e
      ensures !OccursAt(c, CloseFence, p)
    {
      var q: nat := p - |OpenFence|;
      assert c[|OpenFence|..e] == j;
      if p + 4 <= e {
        assert c[p..p + 4] == j[q..q + 4];
        assert !OccursAt(j, CloseFence, q);
      } else {
        assert c[e] == '\n';
        assert c[p..p + 4][e - p] == c[e];
      }
    }
    var found := IndexOf(c, CloseFence, |OpenFence|);
    assert found == Some(e);
  }

  /** The header found in a serialised record is exactly its joined lines. */
  lemma ParseSerialisedBody(m: seq<Entry>, rest: string)
    requires |m| > 0 && FenceFree(m)
    ensures ParseHeader(Serialise(m) + rest) == ParseLines(Split(Join(PairTexts(m), "\n"), '\n'))
  {
    var j := Join(PairTexts(m), "\n");
    ParseSerialisedSpan(m, rest);
    SerialisedBodySlice(m, rest);
  }

  /** The lines of a serialised record sit right after the opening fence. */
  lemma SerialisedBodySlice(m: seq<Entry>, rest: string)
    requires |m| > 0
    ensures var j := Join(PairTexts(m), "\n");
            |Serialise(m) + rest| >= |OpenFence| + |j| &&
            (Serialise(m) + rest)[|OpenFence|..|OpenFence| + |j|] == j
  {
    SerialiseShape(m);
    SliceOfSecond(OpenFence, Join(PairTexts(m), "\n"), CloseFence, rest);
  }

  /** What gets read from a serialised record is the text between its
      fences. */
  lemma ParseSerialisedSpan(m: seq<Entry>, rest: string)
    requires |m| > 0 && FenceFree(m)
    ensures var j := Join(PairTexts(m), "\n");
            var c := Serialise(m) + rest;
            |OpenFence| + |j| <= |c| &&
            ParseHeader(c) == ParseLines(Split(c[|OpenFence|..|OpenFence| + |j|], '\n'))
  {
    FindSerialised(m, rest);
    var j := Join(PairTexts(m), "\n");
    ParseFound(Serialise(m) + rest, HeaderSpan(|OpenFence|, |OpenFence| + |j|));
  }

  /** Where a header is found, its body is what gets read. */
  lemma ParseFound(s: string, span: HeaderSpan)
    requires FindHeader(s) == Some(span)
    ensures span.bodyStart <= span.bodyEnd <= |s|
    ensures ParseHeader(s) == ParseLines(Split(s[span.bodyStart..span.bodyEnd], '\n'))
  {
  }

  lemma PairTextsNoNewline(m: seq<Entry>)
    requires AllLineSafe(m)
    ensures forall i :: 0 <= i < |m| ==> '\n' !in PairTexts(m)[i]
  {
    forall i | 0 <= i < |m|
      ensures '\n' !in PairTexts(m)[i]
    {
      PairTextNoNewline(m[i]);
    }
  }

  /** A serialised non-empty record of line-safe entries reads back as
      itself, whatever text follows the block. */
  lemma ParseSerialised(m: seq<Entry>, rest: string)
    requires |m| > 0 && AllLineSafe(m)
    ensures ParseHeader(Serialise(m) + rest) == Some(m)
  {
    LineSafeFenceFree(m);
    ParseSerialisedBody(m, rest);
    PairTextsNoNewline(m);
    SplitJoin(PairTexts(m), '\n');
    ParseLinesSafe(m);
  }
}

=== FILE: notion.dfy ===
/** The remote objects the connector reads, as closed datatypes: only the
    fields the projection looks at, each kind with exactly its own fields. */
module NotionModel {
  import opened Optional

  /** The style flags of a rich-text run; they only reach the text through
      the external annotator. */
  datatype Annotations = Annotations(
    bold: bool, italic: bool, strikethrough: bool, underline: bool, code: bool, color: string)

  datatype RichText = RichText(plainText: string, annotations: Annotations)

  /** The external `annotatePlainText(text, annotations)`, taken as given. */
  type Annotator = (string, Annotations) -> string

  /** The external page renderer (`pageToMarkdown` then `toMarkdownString`),
      taken as a given function of the page id. */
  type Renderer = string -> string

  datatype SelectOption = SelectOption(name: string, color: string)

  /** A database column's kind; only the two option-carrying kinds matter. */
  datatype ColumnKind =
    | SelectColumn(options: seq<SelectOption>)
    | MultiSelectColumn(options: seq<SelectOption>)
    | OtherColumn(kind: string)

  datatype Column = Column(name: string, id: string, kind: ColumnKind)

  /** A cover image: none (`null`), an uploaded file, or an external link. */
  datatype Cover = NoCover | FileCover(fileUrl: string) | ExternalCover(url: string)

  datatype Database = Database(id: string, title: seq<RichText>, columns: seq<Column>, cover: Cover)

  /** A user mention: a full user (whose name may be `null`) or a partial one. */
  datatype User = FullUser(name: Option<string>) | PartialUser(userId: string)

  /** A date property's value; each part may be absent. */
  datatype DateRange = DateRange(start: Option<string>, end: Option<string>, timeZone: Option<string>)

  /** A page property's value, tagged by its kind. */
  datatype PropertyValue =
    | People(users: seq<User>)
    | Checkbox(checked: bool)
    | CreatedTime(time: string)
    | Date(date: Option<DateRange>)
    | Title(runs: seq<RichText>)
    | Select(option: Option<SelectOption>)
    | MultiSelect(options: seq<SelectOption>)
    | OtherValue(kind: string)

  datatype Property = Property(name: string, value: PropertyValue)

  datatype Page = Page(id: string, properties: seq<Property>, cover: Cover)

  /** Database column names, like page property names, are record keys. */
  ghost predicate DistinctColumnNames(cols: seq<Column>)
  {
    forall i, j :: 0 <= i < j < |cols| ==> cols[i].name != cols[j].name
  }

  ghost predicate DistinctPropertyNames(props: seq<Property>)
  {
    forall i, j :: 0 <= i < j < |props| ==> props[i].name != props[j].name
  }

  /** `props[name]`: the property of that name, if the page has one. */
  function FindProperty(props: seq<Property>, name: string): (r: Option<PropertyValue>)
    ensures r.Some? <==> exists i :: 0 <= i < |props| && props[i].name == name
    ensures r.Some? ==> exists i :: 0 <= i < |props| && props[i] == Property(name, r.value)
  {
    if |props| == 0 then None
    else if props[0].name == name then Some(props[0].value)
    else
      var r := FindProperty(props[1..], name);
      assert forall i :: 1 <= i < |props| ==> props[i] == props[1..][i - 1];
      r
  }

  /** A vault file: its path, its folder's path (`/` for the vault root) and
      its name without extension. */
  datatype FileRef = FileRef(path: string, parentPath: string, basename: string)
}

=== FILE: optional.dfy ===
/** The optional value used throughout the model for "absent" JavaScript values
    (`undefined`, `null`) and for searches that can fail. */
module Optional {

  datatype Option<+T> = None | Some(value: T) {

    /** The value, or `default` when absent (JavaScript's `??`). */
    function GetOr(default: T): T {
      match this
      case Some(v) => v
      case None => default
    }
  }
}

=== FILE: schema.dfy ===
/** `notionDatabaseToMarkdown`: a database's own note, a heading and a
    `%% dbfolder:yaml` view configuration with one column block per column. */
module DatabaseProjector {
  import opened Optional
  import opened Strings
  import opened NotionModel
  import Base64

  /** `- { label: "<name>", backgroundColor: "<color>" }`. */
  function OptionText(o: SelectOption): string
  {
    "- { label: \"" + o.name + "\", backgroundColor: \"" + o.color + "\" }"
  }

  function OptionTexts(opts: seq<SelectOption>): (r: seq<string>)
    ensures |r| == |opts|
    ensures forall i :: 0 <= i < |opts| ==> r[i] == OptionText(opts[i])
  {
    if |opts| == 0 then [] else [OptionText(opts[0])] + OptionTexts(opts[1..])
  }

  /** `formatOptions`: each option on its own line indented by four spaces,
      in the given order; with no options, the bare indent. */
  function FormatOptions(opts: seq<SelectOption>): (r: string)
    ensures |opts| == 0 ==> r == "    "
    ensures |opts| > 0 ==> r == Join(PrefixEach("    ", OptionTexts(opts)), "\n")
  {
    var r := "    " + Join(OptionTexts(opts), "\n    ");
    assert "\n" + "    " == "\n    ";
    if |opts| > 0 then IndentedJoin("    ", OptionTexts(opts)); r else r
  }

  /** What the view configuration records about one column. */
  datatype ColumnConfig = ColumnConfig(
    name: string, key: string, input: string, options: Option<seq<SelectOption>>,
    accessorKey: string, displayLabel: string, position: nat)

  /** The configuration of the column at `position`: its key is the name
      with spaces turned into hyphens, its input kind and option list follow
      its kind, its accessor key is the base 64 form of its id's UTF-8 bytes,
      and its label is the unchanged name. */
  function ColumnConfigOf(c: Column, position: nat): (r: ColumnConfig)
    ensures r.name == c.name && r.displayLabel == c.name && r.position == position
    ensures r.key == Hyphenate(c.name)
    ensures |r.key| == |c.name| && ' ' !in r.key
    ensures forall i :: 0 <= i < |c.name| && c.name[i] != ' ' ==> r.key[i] == c.name[i]
    ensures r.input == (if c.kind.SelectColumn? then "select" else if c.kind.MultiSelectColumn? then "tags" else "text")
    ensures r.options.Some? <==> !c.kind.OtherColumn?
    ensures r.options.Some? ==> r.options.value == c.kind.options
    ensures r.accessorKey == Base64.Encode(Base64.Utf8(c.id))
    ensures Base64.Decode(r.accessorKey) == Some(Base64.Utf8(c.id))
    ensures forall s :: Base64.Decode(s) == Some(Base64.Utf8(c.id)) ==> s == r.accessorKey
  {
    var b := Base64.Utf8(c.id);
    Base64.DecodeEncode(b);
    forall s | Base64.Decode(s) == Some(b) ensures s == Base64.Encode(b) {
      Base64.EncodeDecode(s);
    }
    var (input, options) := match c.kind
      case SelectColumn(opts) => ("select", Some(opts))
      case MultiSelectColumn(opts) => ("tags", Some(opts))
      case OtherColumn(_) => ("text", None);
    ColumnConfig(c.name, Hyphenate(c.name), input, options, Base64.Encode(b), c.name, position)
  }

  /** The display settings every column gets. */
  const ColumnDefaults: seq<string> := [
    "    skipPersist: false\n",
    "    isHidden: false\n",
    "    sortIndex: -1\n",
    "    config:\n",
    "      enable_media_view: true\n",
    "      media_width: 80\n",
    "      media_height: 100\n",
    "      isInline: false\n" ]

  /** The `options:` line and the formatted options, for the kinds that
      have options. */
  function OptionLines(options: Option<seq<SelectOption>>): seq<string>
  {
    match options
    case Some(opts) => ["    options:\n" + FormatOptions(opts) + "\n"]
    case None => []
  }

  /** The lines of one column block of the view configuration: name, key,
      input, the options for kinds that have them, accessor key, label,
      position, then the display settings every column gets. */
  function ColumnLines(cfg: ColumnConfig): seq<string>
  {
    ["  " + cfg.name + ":\n",
     "    key: " + cfg.key + "\n",
     "    input: " + cfg.input + "\n"] +
    OptionLines(cfg.options) +
    ["    accessorKey: " + cfg.accessorKey + "\n",
     "    label: " + cfg.displayLabel + "\n",
     "    position: " + NatToString(cfg.position) + "\n"] +
    ColumnDefaults
  }

  /** The line layout of a block, line by line. */
  lemma ColumnLinesShape(cfg: ColumnConfig)
    ensures var r := ColumnLines(cfg);
            var n := if cfg.options.Some? then 1 else 0;
            |r| == 14 + n &&
            r[0] == "  " + cfg.name + ":\n" &&
            r[1] == "    key: " + cfg.key + "\n" &&
            r[2] == "    input: " + cfg.input + "\n" &&
            (cfg.options.Some? ==> r[3] == "    options:\n" + FormatOptions(cfg.options.value) + "\n") &&
            r[3 + n] == "    accessorKey: " + cfg.accessorKey + "\n" &&
            r[4 + n] == "    label: " + cfg.displayLabel + "\n" &&
            r[5 + n] == "    position: " + NatToString(cfg.position) + "\n" &&
            r[6 + n..] == ColumnDefaults
  {
  }

  /** A column block: its lines, one after the other. */
  function RenderColumn(cfg: ColumnConfig): string
  {
    Concat(ColumnLines(cfg))
  }

  /** The column blocks, the block at index `i` carrying position `i`. */
  function ColumnBlocks(cols: seq<Column>): (r: seq<string>)
    ensures |r| == |cols|
    ensures forall i :: 0 <= i < |cols| ==> r[i] == ColumnBlock(cols[i], i)
  {
    seq(|cols|, i requires 0 <= i < |cols| => ColumnBlock(cols[i], i))
  }

  /** The block of the column at `position`. */
  function ColumnBlock(c: Column, position: nat): string
  {
    RenderColumn(ColumnConfigOf(c, position))
  }

  /** The block of a column opens with its name line and its key line, the
      name with spaces turned into hyphens. */
  lemma ColumnBlockKey(c: Column, position: nat)
    ensures var b := ColumnBlock(c, position);
            var nameLine := "  " + c.name + ":\n";
            OccursAt(b, nameLine, 0) && OccursAt(b, "    key: " + Hyphenate(c.name) + "\n", |nameLine|)
  {
    var cfg := ColumnConfigOf(c, position);
    ColumnLinesShape(cfg);
    BlockLayout(ColumnLines(cfg), if cfg.options.Some? then 1 else 0);
  }

  /** The block of a column holds the accessor key line with the base 64
      form of the id's UTF-8 bytes. */
  lemma ColumnBlockAccessor(c: Column, position: nat)
    ensures Contains(ColumnBlock(c, position), "    accessorKey: " + Base64.Encode(Base64.Utf8(c.id)) + "\n")
  {
    var cfg := ColumnConfigOf(c, position);
    var lines := ColumnLines(cfg);
    var n := if cfg.options.Some? then 1 else 0;
    ColumnLinesShape(cfg);
    BlockLayout(lines, n);
    assert OccursAt(Concat(lines), lines[3 + n], |Concat(lines[..3 + n])|);
  }

  /** The position line of a column's block carries its position and is
      followed only by the display settings every column gets. */
  lemma ColumnBlockPosition(c: Column, position: nat)
    ensures var b := ColumnBlock(c, position);
            var posLine := "    position: " + NatToString(position) + "\n";
            |b| >= |posLine| + |Concat(ColumnDefaults)| &&
            OccursAt(b, posLine, |b| - |posLine| - |Concat(ColumnDefaults)|)
  {
    var cfg := ColumnConfigOf(c, position);
    ColumnLinesShape(cfg);
    BlockTail(ColumnLines(cfg), if cfg.options.Some? then 1 else 0,
             "    position: " + NatToString(position) + "\n", ColumnDefaults);
  }

  /** The line at `5 + n` of a block is followed only by the lines after it. */
  lemma BlockTail(lines: seq<string>, n: nat, line: string, rest: seq<string>)
    requires n <= 1 && |lines| == 14 + n
    requires lines[5 + n] == line && lines[6 + n..] == rest
    ensures var b := Concat(lines);
            |b| >= |line| + |Concat(rest)| && OccursAt(b, line, |b| - |line| - |Concat(rest)|)
  {
    BlockLayout(lines, n);
  }

  /** Where the name, key, accessor key and position lines stand among the
      concatenated lines of a block. */
  lemma BlockLayout(lines: seq<string>, n: nat)
    requires n <= 1 && |lines| == 14 + n
    ensures var b := Concat(lines);
            OccursAt(b, lines[0], 0) &&
            OccursAt(b, lines[1], |lines[0]|) &&
            OccursAt(b, lines[3 + n], |Concat(lines[..3 + n])|) &&
            |b| >= |lines[5 + n]| + |Concat(lines[6 + n..])| &&
            OccursAt(b, lines[5 + n], |b| - |lines[5 + n]| - |Concat(lines[6 + n..])|)
  {
    assert lines[..0] == [];
    assert lines[..1] == [lines[0]];
    assert Concat(lines[..1]) == lines[0];
    ConcatAt(lines, 0);
    ConcatAt(lines, 1);
    ConcatAt(lines, 3 + n);
    ConcatAt(lines, 5 + n);
    var p := |Concat(lines[..5 + n])|;
    ConcatSplit(lines, 6 + n);
    ConcatPrefixStep(lines, 5 + n);
    assert p + |lines[5 + n]| + |Concat(lines[6 + n..])| == |Concat(lines)|;
  }

  /** The heading and the line opening the configuration block. */
  function Heading(title: string): string
  {
    "# " + title + "\n\n%% dbfolder:yaml\n"
  }

  /** The configuration lines before the column blocks. */
  function ConfigHead(title: string): string
  {
    "name: " + title + "\n" +
    "description:\n" +
    "columns:\n"
  }

  /** The line closing the configuration block. */
  const BlockEnd: string := "%%\n"

  /** The folder the view's query reads: the file's folder path with one
      leading `/` removed (nothing for an empty path), written directly in
      front of `<basename>-entries` with no separator. */
  function QueryFolder(file: FileRef): (r: string)
    ensures |file.parentPath| == 0 ==> r == file.basename + "-entries"
    ensures |file.parentPath| > 0 && file.parentPath[0] == '/' ==>
              r == file.parentPath[1..] + file.basename + "-entries"
    ensures |file.parentPath| > 0 && file.parentPath[0] != '/' ==>
              r == file.parentPath + file.basename + "-entries"
  {
    var prefix :=
      if |file.parentPath| == 0 then ""
      else if file.parentPath[0] == '/' then file.parentPath[1..]
      else file.parentPath;
    prefix + file.basename + "-entries"
  }

  /** The filter and view settings after the column blocks, line by line;
      the query source and the destination both name `folder`. */
  function SettingsLines(folder: string): seq<string>
  {
    [ "filters:\n",
      "  enabled: false\n",
      "  conditions:\n",
      "config:\n",
      "  remove_field_when_delete_column: false\n",
      "  cell_size: normal\n",
      "  sticky_first_column: false\n",
      "  group_folder_column: \n",
      "  remove_empty_folders: false\n",
      "  automatically_group_files: false\n",
      "  hoist_files_with_empty_attributes: true\n",
      "  show_metadata_created: true\n",
      "  show_metadata_modified: true\n",
      "  show_metadata_tasks: true\n",
      "  show_metadata_inlinks: true\n",
      "  show_metadata_outlinks: true\n",
      "  source_data: query\n",
      "  source_form_result: FROM \"" + folder + "\"\n",
      "  source_destination_path: \"" + folder + "\"\n",
      "  frontmatter_quote_wrap: false\n",
      "  row_templates_folder: /\n",
      "  current_row_template: \n",
      "  pagination_size: 10\n",
      "  enable_js_formulas: true\n",
      "  formula_folder_path: /\n",
      "  inline_default: false\n",
      "  inline_new_position: top\n",
      "  date_format: yyyy-MM-dd\n",
      "  datetime_format: yyyy-MM-dd HH:mm:ss\n" ]
  }

  function Settings(file: FileRef): string
  {
    Concat(SettingsLines(QueryFolder(file)))
  }

  /** The full text for a title, the rendered column blocks and the file:
      the heading, the configuration head, each block in order right after
      the blocks before it, the settings, and the closing line. */
  function MarkdownText(title: string, blocks: seq<string>, file: FileRef): (r: string)
    ensures Framed(r, Heading(title), BlockEnd)
  {
    var r := (Heading(title) + ConfigHead(title)) + Concat(blocks) + (Settings(file) + BlockEnd);
    PiecesAt(Heading(title), ConfigHead(title), Concat(blocks), Settings(file), BlockEnd);
    r
  }

  /** The configuration head follows the heading. */
  lemma MarkdownHeadAt(title: string, blocks: seq<string>, file: FileRef)
    ensures OccursAt(MarkdownText(title, blocks, file), ConfigHead(title), |Heading(title)|)
  {
    PiecesAt(Heading(title), ConfigHead(title), Concat(blocks), Settings(file), BlockEnd);
  }

  /** The text holds nothing but the heading, the configuration head, the
      blocks, the settings and the closing line, and the settings stand
      right before the closing line. */
  lemma MarkdownSettingsAt(title: string, blocks: seq<string>, file: FileRef)
    ensures var r := MarkdownText(title, blocks, file);
            |r| == |Heading(title)| + |ConfigHead(title)| + |Concat(blocks)| + |Settings(file)| + |BlockEnd| &&
            OccursAt(r, Settings(file), |r| - |BlockEnd| - |Settings(file)|)
  {
    PiecesAt(Heading(title), ConfigHead(title), Concat(blocks), Settings(file), BlockEnd);
  }

  /** The block at `i` stands right after the heading, the configuration
      head and the blocks before it. */
  lemma MarkdownBlockAt(title: string, blocks: seq<string>, file: FileRef, i: nat)
    requires i < |blocks|
    ensures OccursAt(MarkdownText(title, blocks, file), blocks[i],
                     |Heading(title) + ConfigHead(title)| + |Concat(blocks[..i])|)
  {
    ConcatAtInside(Heading(title) + ConfigHead(title), blocks, Settings(file) + BlockEnd, i);
  }

  /** The database's note: `None` when the title is empty, where reading the
      first title run fails; otherwise the heading with the first run's
      text, the opening of the block, the column blocks in column order, and
      the closing settings ending in `%%`. */
  function DatabaseMarkdown(db: Database, file: FileRef): (r: Option<string>)
    ensures r.None? <==> |db.title| == 0
    ensures r.Some? ==> Framed(r.value, Heading(db.title[0].plainText), BlockEnd)
    ensures r.Some? ==> r.value == MarkdownText(db.title[0].plainText, ColumnBlocks(db.columns), file)
  {
    if |db.title| == 0 then None
    else Some(MarkdownText(db.title[0].plainText, ColumnBlocks(db.columns), file))
  }

  /** The blocks up to `i + 1` are those up to `i` and the block at `i`. */
  lemma BlocksStep(cols: seq<Column>, i: nat)
    requires i < |cols|
    ensures Concat(ColumnBlocks(cols)[..i + 1]) == Concat(ColumnBlocks(cols)[..i]) + ColumnBlock(cols[i], i)
  {
    ConcatPrefixStep(ColumnBlocks(cols), i);
  }

  /** Appends the column blocks one at a time, with a running position
      counter, the way the connector builds them. */
  method AppendBlocks(head: string, cols: seq<Column>) returns (result: string)
    ensures result == head + Concat(ColumnBlocks(cols))
  {
    var blocks := ColumnBlocks(cols);
    result := head;
    var position := 0;
    var i := 0;
    while i < |cols|
      invariant 0 <= i <= |cols|
      invariant position == i
      invariant result == head + Concat(blocks[..i])
    {
      var block := ColumnBlock(cols[i], position);
      BlocksStep(cols, i);
      AppendAssoc(head, Concat(blocks[..i]), block);
      result := result + block;
      position := position + 1;
      i := i + 1;
    }
    WholePrefix(blocks);
  }

  /** The database's note, built the way the connector builds it. */
  method BuildDatabaseMarkdown(db: Database, file: FileRef) returns (r: Option<string>)
    ensures r == DatabaseMarkdown(db, file)
  {
    if |db.title| == 0 {
      return None;
    }
    var title := db.title[0].plainText;
    var result := AppendBlocks(Heading(title) + ConfigHead(title), db.columns);
    AppendAssoc(result, Settings(file), BlockEnd);
    result := result + Settings(file) + BlockEnd;
    return Some(result);
  }
}

=== FILE: strings.dfy ===
/** String helpers shared by the projectors: JavaScript's `join` and `split`,
    the space-to-hyphen key rewrite, substring search and decimal rendering. */
module Strings {
  import opened Optional

  /** `xs.join(sep)`. */
  function Join(xs: seq<string>, sep: string): string
  {
    if |xs| == 0 then ""
    else if |xs| == 1 then xs[0]
    else xs[0] + sep + Join(xs[1..], sep)
  }

  /** Plain concatenation of a sequence of strings. */
  function Concat(xs: seq<string>): string
  {
    if |xs| == 0 then "" else xs[0] + Concat(xs[1..])
  }

  /** Concatenating one more string at the end. */
  lemma {:induction false} ConcatSnoc(xs: seq<string>, x: string)
    ensures Concat(xs + [x]) == Concat(xs) + x
  {
    if |xs| == 0 {
      assert [x][1..] == [];
    } else {
      ConcatSnoc(xs[1..], x);
      assert (xs + [x])[1..] == xs[1..] + [x];
    }
  }

  /** Sequences that agree at every index are equal. */
  lemma PointwiseEqual<T>(a: seq<T>, b: seq<T>)
    requires |a| == |b|
    requires forall i :: 0 <= i < |a| ==> a[i] == b[i]
    ensures a == b
  {
  }

  /** The prefix as long as the sequence is the sequence. */
  lemma WholePrefix<T>(xs: seq<T>)
    ensures xs[..|xs|] == xs
  {
  }

  /** A non-empty sequence is its prefix without the last element, then
      that element. */
  lemma InitLast<T>(xs: seq<T>)
    requires |xs| > 0
    ensures xs == xs[..|xs| - 1] + [xs[|xs| - 1]]
  {
  }

  /** The prefix one element longer adds that element at the end. */
  lemma ConcatPrefixStep(xs: seq<string>, i: nat)
    requires i < |xs|
    ensures Concat(xs[..i + 1]) == Concat(xs[..i]) + xs[i]
  {
    assert xs[..i + 1] == xs[..i] + [xs[i]];
    ConcatSnoc(xs[..i], xs[i]);
  }

  /** The concatenation splits at any index into the parts before and after. */
  lemma {:induction false} ConcatSplit(xs: seq<string>, i: nat)
    requires i <= |xs|
    ensures Concat(xs) == Concat(xs[..i]) + Concat(xs[i..])
  {
    if i == 0 {
      assert xs[..0] == [] && xs[0..] == xs;
    } else {
      ConcatSplit(xs[1..], i - 1);
      assert xs[1..][..i - 1] == xs[..i][1..];
      assert xs[1..][i - 1..] == xs[i..];
    }
  }

  /** Element `i` stands in the concatenation right after the elements
      before it. */
  lemma ConcatAt(xs: seq<string>, i: nat)
    requires i < |xs|
    ensures OccursAt(Concat(xs), xs[i], |Concat(xs[..i])|)
  {
    ConcatSplit(xs, i);
    assert xs[i..][1..] == xs[i + 1..];
    var a, b := Concat(xs[..i]), Concat(xs[i + 1..]);
    assert Concat(xs) == a + (xs[i] + b);
    assert (a + (xs[i] + b))[|a|..|a| + |xs[i]|] == xs[i];
  }

  /** The same, with text in front of and behind the concatenation. */
  lemma ConcatAtInside(a: string, xs: seq<string>, b: string, i: nat)
    requires i < |xs|
    ensures OccursAt(a + Concat(xs) + b, xs[i], |a| + |Concat(xs[..i])|)
  {
    ConcatSplit(xs, i);
    assert xs[i..][1..] == xs[i + 1..];
    var c1, c2 := Concat(xs[..i]), Concat(xs[i + 1..]);
    assert a + Concat(xs) + b == (a + c1) + xs[i] + c2 + b;
    SliceOfSecond(a + c1, xs[i], c2, b);
  }

  /** Moving the parentheses around the last two of four pieces. */
  lemma Reassoc(a: string, b: string, c: string, d: string)
    ensures a + (b + c) + d == a + b + (c + d)
  {
  }

  lemma AppendAssoc(a: string, b: string, c: string)
    ensures a + b + c == a + (b + c)
  {
  }

  /** Where the pieces of `(a + b) + x + (c + d)` stand. */
  lemma PiecesAt(a: string, b: string, x: string, c: string, d: string)
    ensures var r := (a + b) + x + (c + d);
            |r| == |a| + |b| + |x| + |c| + |d| && Framed(r, a, d) &&
            OccursAt(r, b, |a|) && OccursAt(r, c, |a| + |b| + |x|)
  {
    var r := (a + b) + x + (c + d);
    assert r[..|a|] == a;
    assert r[|r| - |d|..] == d;
    assert r[|a|..|a| + |b|] == b;
    assert r[|a| + |b| + |x|..|a| + |b| + |x| + |c|] == c;
  }

  /** Grouping the last three of five pieces. */
  lemma RegroupTail(a: string, b: string, c: string, d: string, e: string)
    ensures (a + b) + (c + d + e) == a + b + c + d + e
  {
  }

  /** The piece after `a` in `a + b + c + d` is `b`. */
  lemma SliceOfSecond(a: string, b: string, c: string, d: string)
    ensures (a + b + c + d)[|a|..|a| + |b|] == b
  {
    var s := a + b + c + d;
    assert forall i :: 0 <= i < |b| ==> s[|a| + i] == b[i];
  }

  /** The piece just before the last one. */
  lemma SliceBeforeLast(x: string, y: string, t: string, n: string)
    ensures var s := x + (y + t + n);
            |s| >= |t| + |n| && s[|s| - |n| - |t|..|s| - |n|] == t
  {
    var s := x + (y + t + n);
    var k := |x| + |y|;
    assert forall i :: 0 <= i < |t| ==> s[k + i] == t[i];
  }

  /** `s` begins with `head` and ends with `tail`, which do not overlap. */
  predicate Framed(s: string, head: string, tail: string)
  {
    |s| >= |head| + |tail| && s[..|head|] == head && s[|s| - |tail|..] == tail
  }

  lemma FramedConcat(head: string, body: string, tail: string)
    ensures Framed(head + body + tail, head, tail)
  {
    var s := head + body + tail;
    assert s[..|head|] == head;
    assert s[|s| - |tail|..] == tail;
  }

  /** Every element with `p` written in front of it. */
  function PrefixEach(p: string, xs: seq<string>): (r: seq<string>)
    ensures |r| == |xs|
    ensures forall i :: 0 <= i < |xs| ==> r[i] == p + xs[i]
  {
    if |xs| == 0 then [] else [p + xs[0]] + PrefixEach(p, xs[1..])
  }

  /** Every element with `s` written after it. */
  function SuffixEach(xs: seq<string>, s: string): (r: seq<string>)
    ensures |r| == |xs|
    ensures forall i :: 0 <= i < |xs| ==> r[i] == xs[i] + s
  {
    if |xs| == 0 then [] else [xs[0] + s] + SuffixEach(xs[1..], s)
  }

  /** A separator written before a join is the same as the separator written
      before every element. */
  /** Joining two non-empty sequences is joining each and putting the
      separator between. */
  lemma {:induction false} JoinAppend(a: seq<string>, b: seq<string>, sep: string)
    requires |a| > 0 && |b| > 0
    ensures Join(a + b, sep) == Join(a, sep) + sep + Join(b, sep)
    decreases |a|
  {
    if |a| == 1 {
      assert (a + b)[1..] == b;
    } else {
      JoinAppend(a[1..], b, sep);
      assert (a + b)[1..] == a[1..] + b;
    }
  }

  lemma {:induction false} LeadingSeparatorJoin(sep: string, xs: seq<string>)
    requires |xs| >= 1
    ensures sep + Join(xs, sep) == Concat(PrefixEach(sep, xs))
  {
    if |xs| == 1 {
      assert PrefixEach(sep, xs) == [sep + xs[0]];
      assert Concat(PrefixEach(sep, xs)) == sep + xs[0] + Concat([]);
    } else {
      LeadingSeparatorJoin(sep, xs[1..]);
      assert PrefixEach(sep, xs)[1..] == PrefixEach(sep, xs[1..]);
    }
  }

  /** Indenting the first element and joining on newline-plus-indent puts every
      element on its own indented line. */
  lemma {:induction false} IndentedJoin(p: string, xs: seq<string>)
    requires |xs| >= 1
    ensures p + Join(xs, "\n" + p) == Join(PrefixEach(p, xs), "\n")
  {
    if |xs| > 1 {
      IndentedJoin(p, xs[1..]);
      assert PrefixEach(p, xs)[1..] == PrefixEach(p, xs[1..]);
    }
  }

  /** Terminating every element with a newline is joining on newline and
      adding one final newline. */
  lemma {:induction false} TerminatedLines(xs: seq<string>)
    requires |xs| >= 1
    ensures Concat(SuffixEach(xs, "\n")) == Join(xs, "\n") + "\n"
  {
    if |xs| == 1 {
      assert Concat(SuffixEach(xs, "\n")) == xs[0] + "\n" + Concat([]);
    } else {
      TerminatedLines(xs[1..]);
      assert SuffixEach(xs, "\n")[1..] == SuffixEach(xs[1..], "\n");
    }
  }

  /** `s.split(c)` for a one-character separator. */
  function Split(s: string, c: char): (r: seq<string>)
    ensures |r| >= 1
  {
    if |s| == 0 then [""]
    else if s[0] == c then [""] + Split(s[1..], c)
    else
      var rest := Split(s[1..], c);
      [[s[0]] + rest[0]] + rest[1..]
  }

  lemma {:induction false} SplitNoSeparator(s: string, c: char)
    requires c !in s
    ensures Split(s, c) == [s]
  {
    if |s| > 0 {
      SplitNoSeparator(s[1..], c);
      assert [s[0]] + s[1..] == s;
    }
  }

  lemma {:induction false} SplitAtFirst(x: string, c: char, t: string)
    requires c !in x
    ensures Split(x + [c] + t, c) == [x] + Split(t, c)
  {
    if |x| == 0 {
      assert x + [c] + t == [c] + t;
      assert ([c] + t)[1..] == t;
    } else {
      assert (x + [c] + t)[1..] == x[1..] + [c] + t;
      SplitAtFirst(x[1..], c, t);
      assert [x[0]] + x[1..] == x;
    }
  }

  /** Splitting on a separator undoes joining on it, as long as no element
      contains the separator. */
  lemma {:induction false} SplitJoin(xs: seq<string>, c: char)
    requires |xs| >= 1
    requires forall i :: 0 <= i < |xs| ==> c !in xs[i]
    ensures Split(Join(xs, [c]), c) == xs
  {
    if |xs| == 1 {
      SplitNoSeparator(xs[0], c);
    } else {
      SplitJoin(xs[1..], c);
      SplitAtFirst(xs[0], c, Join(xs[1..], [c]));
      assert xs == [xs[0]] + xs[1..];
    }
  }

  /** `s.replace(/ /g, "-")`: every space becomes a hyphen. */
  function Hyphenate(s: string): (r: string)
    ensures |r| == |s|
    ensures forall i :: 0 <= i < |s| ==> r[i] == (if s[i] == ' ' then '-' else s[i])
    ensures ' ' !in r
    ensures ' ' !in s ==> r == s
  {
    if |s| == 0 then ""
    else [if s[0] == ' ' then '-' else s[0]] + Hyphenate(s[1..])
  }

  /** `pat` occurs in `s` at index `p`. */
  predicate OccursAt(s: string, pat: string, p: nat)
  {
    p + |pat| <= |s| && s[p..p + |pat|] == pat
  }

  /** `pat` occurs somewhere in `s`. */
  ghost predicate Contains(s: string, pat: string)
  {
    exists p: nat :: OccursAt(s, pat, p)
  }

  /** `s.indexOf(pat, from)`: the first occurrence at or after `from`. */
  function IndexOf(s: string, pat: string, from: nat): (r: Option<nat>)
    requires from <= |s|
    decreases |s| - from
    ensures r.Some? ==> from <= r.value && OccursAt(s, pat, r.value)
    ensures r.Some? ==> forall p: nat :: from <= p < r.value ==> !OccursAt(s, pat, p)
    ensures r.None? ==> forall p: nat :: from <= p ==> !OccursAt(s, pat, p)
  {
    if OccursAt(s, pat, from) then Some(from)
    else if from == |s| then None
    else IndexOf(s, pat, from + 1)
  }

  predicate IsDigit(c: char)
  {
    '0' <= c <= '9'
  }

  function DigitChar(d: nat): (c: char)
    requires d < 10
    ensures IsDigit(c) && DigitValue(c) == d
  {
    "0123456789"[d]
  }

  function DigitValue(c: char): nat
    requires IsDigit(c)
  {
    (c as int) - ('0' as int)
  }

  /** The number a string of decimal digits denotes. */
  function DecimalValue(s: string): nat
    requires forall i :: 0 <= i < |s| ==> IsDigit(s[i])
  {
    if |s| == 0 then 0
    else DecimalValue(s[..|s| - 1]) * 10 + DigitValue(s[|s| - 1])
  }

  /** `${n}` for a non-negative integer: shortest decimal digits. */
  function NatToString(n: nat): (r: string)
    ensures |r| >= 1
    ensures forall i :: 0 <= i < |r| ==> IsDigit(r[i])
    ensures DecimalValue(r) == n
    ensures |r| > 1 ==> r[0] != '0'
  {
    if n < 10 then [DigitChar(n)]
    else
      var r := NatToString(n / 10) + [DigitChar(n % 10)];
      assert r[..|r| - 1] == NatToString(n / 10);
      r
  }
}

=== FILE: sync.dfy ===
/** Downloading a Notion item into a note: which objects get fetched for a
    type hint, what the note then holds, the entry notes of a database, and
    the metadata written into the note's front matter. */
module NotionSync {
  import opened Optional
  import opened Strings
  import opened NotionModel
  import opened FrontMatterMap
  import opened HeaderBlock
  import opened FrontMatterHandler
  import opened DatabaseProjector
  import opened EntryProjector
  import opened Store

  /** One result of a database query: a full page, or a partial one, which
      the connector skips. */
  datatype QueryItem = FullPageItem(page: Page) | PartialPageItem(id: string)

  /** The folder of a database note's entry notes: the note's folder path,
      a `/`, and the note's base name followed by `-entries`. */
  function EntriesDir(file: FileRef): (r: string)
    ensures var n := |file.parentPath|;
            |r| == n + |file.basename| + 9 &&
            r[..n] == file.parentPath && r[n] == '/' &&
            r[n + 1..n + 1 + |file.basename|] == file.basename && r[|r| - 8..] == "-entries"
  {
    var r := file.parentPath + "/" + file.basename + "-entries";
    SliceOfSecond(file.parentPath + "/", file.basename, "-entries", "");
    assert file.parentPath + "/" + file.basename + "-entries" + "" == r;
    r
  }

  /** The path of the entry note of the page with this id: inside the
      entries folder, named by the id with `.md` added. */
  function EntryPath(file: FileRef, id: string): (r: string)
    ensures var d := EntriesDir(file);
            |r| == |d| + |id| + 4 &&
            r[..|d| + 1] == d + "/" && r[|d| + 1..|r| - 3] == id && r[|r| - 3..] == ".md"
  {
    var d := EntriesDir(file);
    SliceOfSecond(d + "/", id, ".md", "");
    assert d + "/" + id + ".md" + "" == d + "/" + id + ".md";
    d + "/" + id + ".md"
  }

  /** The path string of the folder the view configuration queries always
      differs from that of the entries folder: it lacks the `/` in front of
      the base name, and keeps no leading `/` of the folder path. */
  lemma QueryFolderMissesEntries(file: FileRef)
    ensures QueryFolder(file) != EntriesDir(file)
    ensures |file.parentPath| > 0 && file.parentPath[0] != '/' ==>
              EntriesDir(file) == file.parentPath + "/" + file.basename + "-entries" &&
              QueryFolder(file) == file.parentPath + file.basename + "-entries"
  {
    assert |QueryFolder(file)| < |EntriesDir(file)|;
  }

  /** A note in the folder `a` named `note`: the entries go to
      `a/note-entries`, the view queries `anote-entries`. */
  lemma NestedNoteExample()
    ensures EntriesDir(FileRef("a/note.md", "a", "note")) == "a/note-entries"
    ensures QueryFolder(FileRef("a/note.md", "a", "note")) == "anote-entries"
  {
    var f := FileRef("a/note.md", "a", "note");
    assert EntriesDir(f) == "a" + "/" + "note" + "-entries";
    assert QueryFolder(f) == "a" + "note" + "-entries";
  }

  /** A note at the vault root, whose folder path is `/`, gets an entries
      folder path that is a doubled `/` followed by the folder the view
      queries. */
  lemma RootEntriesDir(file: FileRef)
    requires file.parentPath == "/"
    ensures EntriesDir(file)[..2] == "//"
    ensures QueryFolder(file) == file.basename + "-entries"
    ensures EntriesDir(file) == "//" + QueryFolder(file)
  {
    assert EntriesDir(file)[..1] == "/" && EntriesDir(file)[1] == '/';
    assert file.parentPath[1..] == "";
  }

  /** Different pages get different entry notes. */
  lemma EntryPathInjective(file: FileRef, a: string, b: string)
    requires EntryPath(file, a) == EntryPath(file, b)
    ensures a == b
  {
    var d := |EntriesDir(file)| + 1;
    assert EntryPath(file, a)[d..d + |a|] == a;
    assert EntryPath(file, b)[d..d + |b|] == b;
  }

  /** The note text of a page, given the index of its query result. */
  type Projection = (Page, nat) -> string

  /** The entry note of the page at result index `n`, with `clock(n)` the
      sync time read for it. */
  function Projector(clock: nat -> string, annotate: Annotator, render: Renderer): (f: Projection)
    ensures forall p, n :: f(p, n) == EntryContent(p, clock(n), annotate, render)
  {
    (p: Page, n: nat) => EntryContent(p, clock(n), annotate, render)
  }

  /** The entry notes of the query results written into `v`, in result
      order. */
  function WriteEntries(v: Vault, file: FileRef, items: seq<QueryItem>, project: Projection): (r: Vault)
    ensures r.folders == v.folders
    ensures v.files.Keys <= r.files.Keys
  {
    if |items| == 0 then v
    else
      var n := |items| - 1;
      var before := WriteEntries(v, file, items[..n], project);
      match items[n]
      case PartialPageItem(_) => before
      case FullPageItem(p) => CreateOrOverwrite(before, EntryPath(file, p.id), project(p, n))
  }

  /** A path is the entry note of some full page among the results. */
  ghost predicate IsEntryOf(file: FileRef, items: seq<QueryItem>, path: string)
  {
    exists i :: 0 <= i < |items| && items[i].FullPageItem? && path == EntryPath(file, items[i].page.id)
  }

  /** Writing entry notes leaves every other path alone. */
  lemma {:induction false} WriteEntriesFrame(v: Vault, file: FileRef, items: seq<QueryItem>, project: Projection,
                                             path: string)
    requires !IsEntryOf(file, items, path)
    ensures Read(WriteEntries(v, file, items, project), path) == Read(v, path)
    decreases |items|
  {
    if |items| > 0 {
      var n := |items| - 1;
      assert forall i :: 0 <= i < n ==> items[..n][i] == items[i];
      WriteEntriesFrame(v, file, items[..n], project, path);
    }
  }

  /** The entry note of a full page holds that page's projection, taken for
      the last result with the same id. */
  lemma {:induction false} WriteEntriesContent(v: Vault, file: FileRef, items: seq<QueryItem>, project: Projection, i: nat)
    requires i < |items| && items[i].FullPageItem?
    requires forall j :: i < j < |items| && items[j].FullPageItem? ==> items[j].page.id != items[i].page.id
    ensures Read(WriteEntries(v, file, items, project), EntryPath(file, items[i].page.id)) ==
            Some(project(items[i].page, i))
    decreases |items|
  {
    var n := |items| - 1;
    var before := WriteEntries(v, file, items[..n], project);
    var path := EntryPath(file, items[i].page.id);
    if i < n {
      assert items[..n][i] == items[i];
      assert forall j :: i < j < n ==> items[..n][j] == items[j];
      WriteEntriesContent(v, file, items[..n], project, i);
      if items[n].FullPageItem? && EntryPath(file, items[n].page.id) == path {
        EntryPathInjective(file, items[n].page.id, items[i].page.id);
      }
    }
  }

  /** The writes of the first `i + 1` results: those of the first `i`,
      then the write of the result at `i`. */
  lemma WriteEntriesStep(v: Vault, file: FileRef, items: seq<QueryItem>, project: Projection, i: nat)
    requires i < |items|
    ensures var before := WriteEntries(v, file, items[..i], project);
            WriteEntries(v, file, items[..i + 1], project) ==
              if items[i].FullPageItem? then CreateOrOverwrite(before, EntryPath(file, items[i].page.id), project(items[i].page, i))
              else before
  {
    assert items[..i + 1][..i] == items[..i];
  }

  /** `syncDatabaseEntries`: makes sure the entries folder exists, then
      writes one entry note per full page of the query's first result page,
      skipping partial pages. */
  method SyncDatabaseEntries(v: Vault, file: FileRef, items: seq<QueryItem>, clock: nat -> string,
                             annotate: Annotator, render: Renderer) returns (r: Vault)
    ensures r == WriteEntries(EnsureFolder(v, EntriesDir(file)), file, items, Projector(clock, annotate, render))
  {
    var itemDir := EntriesDir(file);
    r := EnsureFolder(v, itemDir);
    ghost var start := r;
    ghost var project := Projector(clock, annotate, render);
    var i := 0;
    while i < |items|
      invariant 0 <= i <= |items|
      invariant r == WriteEntries(start, file, items[..i], project)
    {
      WriteEntriesStep(start, file, items, project, i);
      match items[i] {
        case PartialPageItem(_) =>
        case FullPageItem(p) =>
          var content := ProjectEntry(p, clock(i), annotate, render);
          assert content == project(p, i);
          r := CreateOrOverwrite(r, itemDir + "/" + p.id + ".md", content);
      }
      i := i + 1;
    }
    WholePrefix(items);
  }

  /** After a sync the entries folder exists, and every path that is not
      the entry note of a full page among the results reads as before. */
  lemma SyncedEntries(v: Vault, file: FileRef, items: seq<QueryItem>, project: Projection, path: string)
    ensures Exists(WriteEntries(EnsureFolder(v, EntriesDir(file)), file, items, project), EntriesDir(file))
    ensures !IsEntryOf(file, items, path) ==>
            Read(WriteEntries(EnsureFolder(v, EntriesDir(file)), file, items, project), path) == Read(v, path)
  {
    var start := EnsureFolder(v, EntriesDir(file));
    if !IsEntryOf(file, items, path) {
      WriteEntriesFrame(start, file, items, project, path);
    }
  }

  // ---------------------------------------------------------------------
  // Resolving an id to a page or a database.

  /** What `pages.retrieve` gave: an error, a partial page or a full page. */
  datatype PageFetch = PageFailed | PartialPageFetched | FullPageFetched(page: Page)

  /** What `databases.retrieve` gave; for a full database, also what the
      query of its entries gave: the first result page, or `None` when the
      query was rejected. */
  datatype DatabaseFetch =
    | DatabaseFailed
    | PartialDatabaseFetched
    | FullDatabaseFetched(db: Database, entries: Option<seq<QueryItem>>)

  /** The object an id resolved to; partial objects carry nothing. */
  datatype Item = PageItem(page: Option<Page>) | DatabaseItem(db: Option<Database>)

  /** Which retrievals were made and what they resolved to. */
  datatype Resolution = Resolution(fetchedPage: bool, fetchedDatabase: bool, item: Option<Item>)

  const PageHint: string := "page"

  /** A page is fetched when the hint is missing or empty, or is `page`. */
  predicate FetchesPage(hint: Option<string>)
  {
    !Truthy(hint) || hint.value == PageHint
  }

  function PageItemOf(f: PageFetch): Option<Item>
  {
    match f
    case PageFailed => None
    case PartialPageFetched => Some(PageItem(None))
    case FullPageFetched(p) => Some(PageItem(Some(p)))
  }

  function DatabaseItemOf(f: DatabaseFetch): Option<Item>
  {
    match f
    case DatabaseFailed => None
    case PartialDatabaseFetched => Some(DatabaseItem(None))
    case FullDatabaseFetched(db, _) => Some(DatabaseItem(Some(db)))
  }

  /** The page is tried first (unless the hint names another kind); the
      database is tried only when nothing was found and the hint is not
      `page`. A failed retrieval counts as nothing found. */
  function Resolve(hint: Option<string>, pageFetch: PageFetch, dbFetch: DatabaseFetch): (r: Resolution)
    ensures r.fetchedPage <==> FetchesPage(hint)
    ensures r.fetchedDatabase ==> hint != Some(PageHint)
    ensures r.item.Some? && r.item.value.PageItem? ==> r.fetchedPage && !r.fetchedDatabase
    ensures r.item.Some? && r.item.value.DatabaseItem? ==> r.fetchedDatabase
    ensures r.item.None? ==> (r.fetchedPage ==> pageFetch.PageFailed?) && (r.fetchedDatabase ==> dbFetch.DatabaseFailed?)
    ensures r.fetchedDatabase <==> hint != Some(PageHint) && (FetchesPage(hint) ==> pageFetch.PageFailed?)
    ensures r.fetchedDatabase ==> r.item == DatabaseItemOf(dbFetch)
    ensures r.fetchedPage && !pageFetch.PageFailed? ==> r.item == PageItemOf(pageFetch)
    ensures !r.fetchedDatabase && !(r.fetchedPage && !pageFetch.PageFailed?) ==> r.item.None?
  {
    var fetchedPage := FetchesPage(hint);
    var afterPage := if fetchedPage then PageItemOf(pageFetch) else None;
    var fetchedDatabase := afterPage.None? && hint != Some(PageHint);
    var item := if fetchedDatabase then DatabaseItemOf(dbFetch) else afterPage;
    Resolution(fetchedPage, fetchedDatabase, item)
  }

  /** A `page` hint never leads to a database retrieval. */
  lemma PageHintSkipsDatabase(pageFetch: PageFetch, dbFetch: DatabaseFetch)
    ensures !Resolve(Some(PageHint), pageFetch, dbFetch).fetchedDatabase
    ensures Resolve(Some(PageHint), pageFetch, dbFetch).fetchedPage
  {
  }

  /** Any other non-empty hint never leads to a page retrieval, and the
      database is then always tried. */
  lemma OtherHintSkipsPage(hint: string, pageFetch: PageFetch, dbFetch: DatabaseFetch)
    requires |hint| > 0 && hint != PageHint
    ensures !Resolve(Some(hint), pageFetch, dbFetch).fetchedPage
    ensures Resolve(Some(hint), pageFetch, dbFetch).fetchedDatabase
  {
  }

  /** With no usable hint, a failed page retrieval falls back to the
      database, and the item is whatever that retrieval gave. */
  lemma NoHintFallsBack(hint: Option<string>, dbFetch: DatabaseFetch)
    requires !Truthy(hint)
    ensures Resolve(hint, PageFailed, dbFetch).fetchedPage
    ensures Resolve(hint, PageFailed, dbFetch).fetchedDatabase
    ensures Resolve(hint, PageFailed, dbFetch).item == DatabaseItemOf(dbFetch)
  {
  }

  /** With no usable hint, a page that resolves wins and the database is
      not tried. */
  lemma NoHintPrefersPage(hint: Option<string>, pageFetch: PageFetch, dbFetch: DatabaseFetch)
    requires !Truthy(hint) && !pageFetch.PageFailed?
    ensures Resolve(hint, pageFetch, dbFetch).item == PageItemOf(pageFetch)
    ensures !Resolve(hint, pageFetch, dbFetch).fetchedDatabase
  {
  }

  // ---------------------------------------------------------------------
  // The metadata written into the note.

  /** The object kind Notion reports (`object`). */
  function KindOf(item: Item): (r: string)
    ensures r == "page" <==> item.PageItem?
    ensures r == "database" <==> item.DatabaseItem?
  {
    match item
    case PageItem(_) => "page"
    case DatabaseItem(_) => "database"
  }

  /** The cover of a full object; partial objects have none at all. */
  function CoverOf(item: Item): Option<Cover>
  {
    match item
    case PageItem(Some(p)) => Some(p.cover)
    case DatabaseItem(Some(db)) => Some(db.cover)
    case _ => None
  }

  /** The banner value: the external cover link in double quotes, and
      `"undefined"` for an uploaded cover or none. */
  function BannerText(c: Cover): (r: string)
    ensures |r| >= 2 && r[0] == '"' && r[|r| - 1] == '"'
    ensures c.ExternalCover? ==> r[1..|r| - 1] == c.url
    ensures !c.ExternalCover? ==> r == "\"undefined\""
  {
    "\"" + (if c.ExternalCover? then c.url else "undefined") + "\""
  }

  const TypeField: string := "notion-type"
  const SyncTimeField: string := "notion-last-sync-time"
  const PluginField: string := "database-plugin"
  const BannerField: string := "banner"

  /** The first three `set` calls: id, kind and sync time. */
  function BaseMetadata(cached: FrontMatter, notionId: string, kind: string, now: string): (h: Handler)
    ensures h.cached == cached
    ensures Lookup(h.pending, IdKey) == Some(notionId)
    ensures Lookup(h.pending, TypeField) == Some(kind)
    ensures Lookup(h.pending, SyncTimeField) == Some(now)
    ensures forall k :: k != IdKey && k != TypeField && k != SyncTimeField ==> Lookup(h.pending, k) == None
  {
    Set(Set(Set(NewHandler(cached), IdKey, notionId), TypeField, kind), SyncTimeField, now)
  }

  /** `database-plugin: basic`, for databases only. */
  function WithPlugin(h: Handler, item: Item): (r: Handler)
    ensures r.cached == h.cached
    ensures item.DatabaseItem? ==> Lookup(r.pending, PluginField) == Some("basic")
    ensures item.PageItem? ==> r == h
    ensures forall k :: k != PluginField ==> Lookup(r.pending, k) == Lookup(h.pending, k)
  {
    if KindOf(item) == "database" then Set(h, PluginField, "basic") else h
  }

  /** The banner, for full objects only. */
  function WithBanner(h: Handler, item: Item): (r: Handler)
    ensures r.cached == h.cached
    ensures CoverOf(item).Some? ==> Lookup(r.pending, BannerField) == Some(BannerText(CoverOf(item).value))
    ensures CoverOf(item).None? ==> r == h
    ensures forall k :: k != BannerField ==> Lookup(r.pending, k) == Lookup(h.pending, k)
  {
    match CoverOf(item)
    case Some(c) => Set(h, BannerField, BannerText(c))
    case None => h
  }

  /** The handler after the metadata `set` calls, over the front matter the
      metadata cache holds for the note. */
  function MetadataHandler(cached: FrontMatter, notionId: string, item: Item, now: string): Handler
  {
    WithBanner(WithPlugin(BaseMetadata(cached, notionId, KindOf(item), now), item), item)
  }

  /** The metadata set on the note carries the id given, the resolved kind
      and the sync time, overriding cached values. */
  lemma MetadataCore(cached: FrontMatter, notionId: string, item: Item, now: string)
    ensures var h := MetadataHandler(cached, notionId, item, now);
            Lookup(h.pending, IdKey) == Some(notionId) &&
            Lookup(h.pending, TypeField) == Some(KindOf(item)) &&
            Lookup(h.pending, SyncTimeField) == Some(now)
  {
    var h0 := BaseMetadata(cached, notionId, KindOf(item), now);
    var h1 := WithPlugin(h0, item);
    var h := WithBanner(h1, item);
    assert Lookup(h.pending, IdKey) == Lookup(h0.pending, IdKey);
    assert Lookup(h.pending, TypeField) == Lookup(h0.pending, TypeField);
  }

  /** Reading the id and the kind back through the handler gives the set
      values, whatever the cache held. */
  lemma MetadataGet(cached: FrontMatter, notionId: string, item: Item, now: string)
    ensures var h := MetadataHandler(cached, notionId, item, now);
            Get(h, IdKey, "") == notionId && Get(h, TypeField, "") == KindOf(item)
  {
    var h := MetadataHandler(cached, notionId, item, now);
    MetadataCore(cached, notionId, item, now);
    assert IdKey != PositionKey && TypeField != PositionKey;
    LookupIsMember(h.pending, IdKey, notionId);
    LookupIsMember(h.pending, TypeField, KindOf(item));
  }

  /** `database-plugin: basic` is set exactly for databases. */
  lemma MetadataPlugin(cached: FrontMatter, notionId: string, item: Item, now: string)
    ensures var h := MetadataHandler(cached, notionId, item, now);
            (Lookup(h.pending, PluginField) == Some("basic") <==> item.DatabaseItem?) &&
            (Lookup(h.pending, PluginField).Some? <==> item.DatabaseItem?)
  {
    var h0 := BaseMetadata(cached, notionId, KindOf(item), now);
    var h1 := WithPlugin(h0, item);
    var v := Lookup(WithBanner(h1, item).pending, PluginField);
    assert v == Lookup(h1.pending, PluginField);
    if item.DatabaseItem? {
      assert v == Some("basic");
    } else {
      assert v == Lookup(h0.pending, PluginField) by { assert h1 == h0; }
      assert v == None by { PluginNotBase(h0); }
    }
  }

  /** The three base fields leave the plugin field unset. */
  lemma PluginNotBase(h: Handler)
    requires forall k :: k != IdKey && k != TypeField && k != SyncTimeField ==> Lookup(h.pending, k) == None
    ensures Lookup(h.pending, PluginField) == None
  {
    assert PluginField[0] == 'd';
  }

  /** A banner is set exactly for full objects, which have a cover field. */
  lemma MetadataBanner(cached: FrontMatter, notionId: string, item: Item, now: string)
    ensures var h := MetadataHandler(cached, notionId, item, now);
            Lookup(h.pending, BannerField).Some? <==> CoverOf(item).Some?
  {
    var h0 := BaseMetadata(cached, notionId, KindOf(item), now);
    var h1 := WithPlugin(h0, item);
    assert Lookup(h0.pending, BannerField) == None;
    assert Lookup(h1.pending, BannerField) == None;
  }

  /** The note's text before the metadata is applied: the rendered page,
      the database's note, or nothing for a partial object; `None` when the
      database's note cannot be built (an empty title). */
  function ItemText(item: Item, file: FileRef, render: Renderer): (r: Option<string>)
    ensures item.PageItem? ==> r.Some?
    ensures r.None? <==> item.DatabaseItem? && item.db.Some? && |item.db.value.title| == 0
    ensures item.PageItem? && item.page.Some? ==> r == Some(render(item.page.value.id))
    ensures item.DatabaseItem? && item.db.Some? ==> r == DatabaseMarkdown(item.db.value, file)
    ensures (item.PageItem? && item.page.None?) || (item.DatabaseItem? && item.db.None?) ==> r == Some("")
  {
    match item
    case PageItem(Some(p)) => Some(render(p.id))
    case PageItem(None) => Some("")
    case DatabaseItem(Some(db)) => DatabaseMarkdown(db, file)
    case DatabaseItem(None) => Some("")
  }

  /** What a download did. */
  datatype Outcome =
    | NotFound        // nothing resolved; the note is not touched
    | Aborted         // the database's note could not be built; nothing written
    | QueryFailed     // the entries query was rejected; only the entries folder was made
    | Downloaded(kind: string)

  /** A full database whose entries query went through: its entry notes
      are written. */
  predicate SyncsEntries(item: Item, dbFetch: DatabaseFetch)
  {
    item.DatabaseItem? && item.db.Some? && dbFetch.FullDatabaseFetched? && dbFetch.entries.Some?
  }

  /** A full database whose entries query was rejected. */
  predicate QueryRejected(item: Item, dbFetch: DatabaseFetch)
  {
    item.DatabaseItem? && item.db.Some? && dbFetch.FullDatabaseFetched? && dbFetch.entries.None?
  }

  /** No later result carries the same id as the full page at `i`. */
  ghost predicate LastWithId(items: seq<QueryItem>, i: nat)
    requires i < |items| && items[i].FullPageItem?
  {
    forall j :: i < j < |items| && items[j].FullPageItem? ==> items[j].page.id != items[i].page.id
  }

  /** A path the download may write besides the note itself: an entry note
      of a full database whose entries are synced. */
  ghost predicate EntryNoteOf(file: FileRef, item: Item, dbFetch: DatabaseFetch, path: string)
  {
    SyncsEntries(item, dbFetch) && IsEntryOf(file, dbFetch.entries.value, path)
  }

  /** `downloadFromNotionToFile`, given what the retrievals return, the
      front matter the metadata cache holds for the note when the handler
      reads it, and the sync times. A download that goes through leaves
      the note holding its text with the metadata applied, writes the entry
      notes of a full database, and leaves every other path alone. */
  function Download(v: Vault, file: FileRef, notionId: string, hint: Option<string>,
                    pageFetch: PageFetch, dbFetch: DatabaseFetch, cached: FrontMatter,
                    now: string, clock: nat -> string, annotate: Annotator, render: Renderer): (r: (Outcome, Vault))
    ensures r.0.NotFound? <==> Resolve(hint, pageFetch, dbFetch).item.None?
    ensures r.0.NotFound? || r.0.Aborted? ==> r.1 == v
    ensures r.0.Aborted? <==>
              var res := Resolve(hint, pageFetch, dbFetch).item;
              res.Some? && ItemText(res.value, file, render).None?
    ensures r.0.QueryFailed? <==>
              var res := Resolve(hint, pageFetch, dbFetch).item;
              res.Some? && ItemText(res.value, file, render).Some? && QueryRejected(res.value, dbFetch)
    ensures r.0.QueryFailed? ==> r.1 == EnsureFolder(v, EntriesDir(file))
    ensures r.0.Downloaded? ==>
              var item := Resolve(hint, pageFetch, dbFetch).item.value;
              r.0.kind == KindOf(item) && ItemText(item, file, render).Some? &&
              Read(r.1, file.path) == Some(Apply(MetadataHandler(cached, notionId, item, now), ItemText(item, file, render).value))
    ensures r.0.Downloaded? ==>
              var item := Resolve(hint, pageFetch, dbFetch).item.value;
              forall p :: p != file.path && !EntryNoteOf(file, item, dbFetch, p) ==> Read(r.1, p) == Read(v, p)
  {
    match Resolve(hint, pageFetch, dbFetch).item
    case None => (NotFound, v)
    case Some(item) => DownloadItem(v, file, notionId, item, dbFetch, cached, now, clock, annotate, render)
  }

  /** The download of a resolved object: aborted when its note cannot be
      built; for a full database the entries folder is made and, unless the
      query is rejected, the entry notes are written; then the note's text,
      then the text with the metadata applied. */
  function DownloadItem(v: Vault, file: FileRef, notionId: string, item: Item, dbFetch: DatabaseFetch,
                        cached: FrontMatter, now: string, clock: nat -> string,
                        annotate: Annotator, render: Renderer): (r: (Outcome, Vault))
    ensures !r.0.NotFound?
    ensures r.0.Aborted? <==> ItemText(item, file, render).None?
    ensures r.0.Aborted? ==> r.1 == v
    ensures r.0.QueryFailed? <==> ItemText(item, file, render).Some? && QueryRejected(item, dbFetch)
    ensures r.0.QueryFailed? ==> r.1 == EnsureFolder(v, EntriesDir(file))
    ensures r.0.Downloaded? ==>
              r.0.kind == KindOf(item) &&
              Read(r.1, file.path) == Some(Apply(MetadataHandler(cached, notionId, item, now), ItemText(item, file, render).value))
    ensures r.0.Downloaded? ==>
              forall p :: p != file.path && !EntryNoteOf(file, item, dbFetch, p) ==> Read(r.1, p) == Read(v, p)
  {
    match ItemText(item, file, render)
    case None => (Aborted, v)
    case Some(content) =>
      if QueryRejected(item, dbFetch) then (QueryFailed, EnsureFolder(v, EntriesDir(file)))
      else
        var v1 := EntryWrites(v, file, item, dbFetch, clock, annotate, render);
        var v2 := Write(v1, file.path, content);
        (Downloaded(KindOf(item)), Write(v2, file.path, Apply(MetadataHandler(cached, notionId, item, now), content)))
  }

  /** A download of a full database with a title whose query went through
      leaves the note of every entry, other than one that would land on the database's
      own note, holding the projection of the last result with its id. */
  lemma DownloadedEntries(v: Vault, file: FileRef, notionId: string, item: Item, dbFetch: DatabaseFetch,
                          cached: FrontMatter, now: string, clock: nat -> string,
                          annotate: Annotator, render: Renderer, i: nat)
    requires SyncsEntries(item, dbFetch)
    requires |item.db.value.title| > 0
    requires i < |dbFetch.entries.value| && dbFetch.entries.value[i].FullPageItem?
    requires LastWithId(dbFetch.entries.value, i)
    requires EntryPath(file, dbFetch.entries.value[i].page.id) != file.path
    ensures var r := DownloadItem(v, file, notionId, item, dbFetch, cached, now, clock, annotate, render);
            var page := dbFetch.entries.value[i].page;
            Read(r.1, EntryPath(file, page.id)) == Some(EntryContent(page, clock(i), annotate, render))
  {
    assert ItemText(item, file, render).Some? && !QueryRejected(item, dbFetch);
    var content := ItemText(item, file, render).value;
    var v1 := EntryWrites(v, file, item, dbFetch, clock, annotate, render);
    var v2 := Write(v1, file.path, content);
    var path := EntryPath(file, dbFetch.entries.value[i].page.id);
    assert Read(v2, path) == Read(v1, path);
  }

  /** For a full database whose query went through, the entries folder is
      made and the entry notes are written, each holding the projection of
      the last result with its id; for anything else the vault is left as
      it is. Only entry notes change. */
  function EntryWrites(v: Vault, file: FileRef, item: Item, dbFetch: DatabaseFetch,
                       clock: nat -> string, annotate: Annotator, render: Renderer): (r: Vault)
    ensures !SyncsEntries(item, dbFetch) ==> r == v
    ensures SyncsEntries(item, dbFetch) ==> Exists(r, EntriesDir(file)) && r.folders == EnsureFolder(v, EntriesDir(file)).folders
    ensures forall p :: !EntryNoteOf(file, item, dbFetch, p) ==> Read(r, p) == Read(v, p)
    ensures SyncsEntries(item, dbFetch) ==>
              var entries := dbFetch.entries.value;
              forall i :: 0 <= i < |entries| && entries[i].FullPageItem? && LastWithId(entries, i) ==>
                Read(r, EntryPath(file, entries[i].page.id)) == Some(EntryContent(entries[i].page, clock(i), annotate, render))
  {
    if SyncsEntries(item, dbFetch) then
      var entries := dbFetch.entries.value;
      var start := EnsureFolder(v, EntriesDir(file));
      var project := Projector(clock, annotate, render);
      forall p | !IsEntryOf(file, entries, p)
        ensures Read(WriteEntries(start, file, entries, project), p) == Read(v, p)
      {
        SyncedEntries(v, file, entries, project, p);
      }
      forall i | 0 <= i < |entries| && entries[i].FullPageItem? && LastWithId(entries, i)
        ensures Read(WriteEntries(start, file, entries, project), EntryPath(file, entries[i].page.id)) ==
                Some(EntryContent(entries[i].page, clock(i), annotate, render))
      {
        WriteEntriesContent(start, file, entries, project, i);
      }
      SyncedEntries(v, file, entries, project, "");
      WriteEntries(start, file, entries, project)
    else v
  }

  /** After a download the note's front matter reads back as the handler's
      current map, which carries the given id and the resolved kind. */
  lemma DownloadedNote(v: Vault, file: FileRef, notionId: string, hint: Option<string>,
                       pageFetch: PageFetch, dbFetch: DatabaseFetch, cached: FrontMatter,
                       now: string, clock: nat -> string, annotate: Annotator, render: Renderer)
    requires Resolve(hint, pageFetch, dbFetch).item.Some?
    requires var item := Resolve(hint, pageFetch, dbFetch).item.value;
             AllLineSafe(Current(MetadataHandler(cached, notionId, item, now)))
    ensures var r := Download(v, file, notionId, hint, pageFetch, dbFetch, cached, now, clock, annotate, render);
            var item := Resolve(hint, pageFetch, dbFetch).item.value;
            var m := Current(MetadataHandler(cached, notionId, item, now));
            r.0.Downloaded? ==>
              Read(r.1, file.path).Some? && ParseHeader(Read(r.1, file.path).value) == Some(m) &&
              Lookup(m, IdKey) == Some(notionId) && Lookup(m, TypeField) == Some(r.0.kind)
  {
    var r := Download(v, file, notionId, hint, pageFetch, dbFetch, cached, now, clock, annotate, render);
    var item := Resolve(hint, pageFetch, dbFetch).item.value;
    var h := MetadataHandler(cached, notionId, item, now);
    var m := Current(h);
    MetadataCore(cached, notionId, item, now);
    CurrentLookup(h, IdKey);
    CurrentLookup(h, TypeField);
    assert IdKey in Keys(m);
    if r.0.Downloaded? {
      ApplyReadsBack(h, ItemText(item, file, render).value);
    }
  }

  /** `syncCurrentPageWithNotion`: with no active note, or no `notion-id` in
      its front matter, nothing happens; otherwise the note is downloaded
      again, with its `notion-type` as the hint. */
  function SyncCurrentPage(v: Vault, active: Option<FileRef>, cached: FrontMatter,
                           pageFetch: PageFetch, dbFetch: DatabaseFetch, cachedLater: FrontMatter,
                           now: string, clock: nat -> string, annotate: Annotator, render: Renderer): (r: (Outcome, Vault))
    ensures active.None? ==> r == (NotFound, v)
    ensures active.Some? && Lookup(cached, IdKey).GetOr("") == "" ==> r == (NotFound, v)
    ensures active.Some? && Lookup(cached, IdKey).GetOr("") != "" ==>
              r == Download(v, active.value, Lookup(cached, IdKey).value, Lookup(cached, TypeField),
                            pageFetch, dbFetch, cachedLater, now, clock, annotate, render)
  {
    match active
    case None => (NotFound, v)
    case Some(file) =>
      var h := NewHandler(cached);
      CurrentLookup(h, TypeField);
      var notionId := Get(h, IdKey, "");
      if notionId == "" then (NotFound, v)
      else
        var hint := Lookup(Current(h), TypeField);
        Download(v, file, notionId, hint, pageFetch, dbFetch, cachedLater, now, clock, annotate, render)
  }

  /** A note synced again resolves with its recorded kind as the hint: a
      note recorded as a page never triggers a database retrieval, and a
      note recorded as a database never triggers a page retrieval. */
  lemma SyncUsesRecordedKind(cached: FrontMatter, pageFetch: PageFetch, dbFetch: DatabaseFetch)
    ensures Lookup(cached, TypeField) == Some(PageHint) ==>
            !Resolve(Lookup(Current(NewHandler(cached)), TypeField), pageFetch, dbFetch).fetchedDatabase
    ensures Lookup(cached, TypeField) == Some("database") ==>
            !Resolve(Lookup(Current(NewHandler(cached)), TypeField), pageFetch, dbFetch).fetchedPage
  {
    var recorded := Lookup(cached, TypeField);
    CurrentLookup(NewHandler(cached), TypeField);
    assert Lookup(Current(NewHandler(cached)), TypeField) == recorded;
    if recorded == Some(PageHint) {
      PageHintSkipsDatabase(pageFetch, dbFetch);
    } else if recorded == Some("database") {
      OtherHintSkipsPage("database", pageFetch, dbFetch);
    }
  }
}

=== FILE: vault.dfy ===
/** The vault as the connector sees it: file contents by path, and a set of
    folder paths. */
module Store {
  import opened Optional

  datatype Vault = Vault(files: map<string, string>, folders: set<string>)

  /** `adapter.exists(path)`: a file or a folder at that path. */
  predicate Exists(v: Vault, path: string)
  {
    path in v.files || path in v.folders
  }

  /** The content of the file at `path`, if there is one. */
  function Read(v: Vault, path: string): (r: Option<string>)
    ensures r.Some? <==> path in v.files
  {
    if path in v.files then Some(v.files[path]) else None
  }

  /** `vault.create` and `adapter.write` / `vault.modify` alike leave the
      given text as the file's content. */
  function Write(v: Vault, path: string, content: string): (r: Vault)
    ensures r.folders == v.folders
    ensures Read(r, path) == Some(content)
    ensures forall p :: p != path ==> Read(r, p) == Read(v, p)
  {
    v.(files := v.files[path := content])
  }

  /** `createOrOverwrite`: creates the file when nothing is at the path, and
      overwrites it otherwise; either way the file then holds `content`,
      one path more is a file at most, and nothing else changes. */
  function CreateOrOverwrite(v: Vault, name: string, content: string): (r: Vault)
    ensures r.folders == v.folders
    ensures Read(r, name) == Some(content)
    ensures forall p :: p != name ==> Read(r, p) == Read(v, p)
    ensures r.files.Keys == v.files.Keys + {name}
  {
    if !Exists(v, name) then Write(v, name, content)
    else Write(v, name, content)
  }

  /** Writing the same file twice keeps the second content only. */
  lemma OverwriteTwice(v: Vault, name: string, a: string, b: string)
    ensures CreateOrOverwrite(CreateOrOverwrite(v, name, a), name, b) == CreateOrOverwrite(v, name, b)
  {
    var r1 := CreateOrOverwrite(CreateOrOverwrite(v, name, a), name, b);
    var r2 := CreateOrOverwrite(v, name, b);
    assert r1.files == r2.files;
  }

  /** Writing the content a file already holds changes nothing. */
  lemma OverwriteSame(v: Vault, name: string)
    requires name in v.files
    ensures CreateOrOverwrite(v, name, v.files[name]) == v
  {
    assert CreateOrOverwrite(v, name, v.files[name]).files == v.files;
  }

  /** Writes to different paths commute. */
  lemma OverwriteCommutes(v: Vault, n1: string, c1: string, n2: string, c2: string)
    requires n1 != n2
    ensures CreateOrOverwrite(CreateOrOverwrite(v, n1, c1), n2, c2) ==
            CreateOrOverwrite(CreateOrOverwrite(v, n2, c2), n1, c1)
  {
    var r1 := CreateOrOverwrite(CreateOrOverwrite(v, n1, c1), n2, c2);
    var r2 := CreateOrOverwrite(CreateOrOverwrite(v, n2, c2), n1, c1);
    assert r1.files == r2.files;
  }

  /** Creates the folder when nothing is at its path. */
  function EnsureFolder(v: Vault, dir: string): (r: Vault)
    ensures Exists(r, dir)
    ensures r.files == v.files
    ensures Exists(v, dir) ==> r == v
    ensures !Exists(v, dir) ==> r.folders == v.folders + {dir}
  {
    if Exists(v, dir) then v else v.(folders := v.folders + {dir})
  }
}
